=== FILE: README.md ===
# Changelog directives of a merged pull request

A model of `PRIssue`, the record of one merged GitHub pull request from which the
changelog generator builds its entries. Its core is `parseMetaData`. That method
looks in the pull request body for a changelog directive: a line opening with `cl`
or `changelog` (any case), optionally followed by a bracket of comma-separated
metadata and a message, for example `cl: [3.5, Bug] Fixed race in scheduler`. From
the directive it computes four values:

- the **version filter**: the metadata pieces that are `digits.digits`, trimmed;
- the **label filter**: the other non-blank pieces, trimmed; when there are none,
  the GitHub labels;
- the **header**: the directive's message passed to `formatChangeText` with the
  link and author suffixes; when there is no message, the title decorated by
  `addLink` and `addAuthor`;
- the **body text**: the body with the directive removed.

The four getters compute these values lazily and cache them. The secondary
constructor maps each GitHub label name through a category map.

Modules, one per file:

- `Options`: the `Option` datatype that stands for a nullable field or a failed
  match.
- `CharClasses`: the character classes of `java.util.regex`, namely `\s`, `\d`,
  the word test of `\b`, line terminators and ASCII case folding. Also the class
  `String.trim()` strips.
- `JavaStrings`: `trim()`, `split(",")` with its trailing-empty rule, and `%d`.
- `Patterns`: the four fixed regular expressions, each as an explicit search:
  - the directive detector and `replaceAll("")`;
  - the metadata bracket;
  - the message extractor, with its lazy capture and `$` before a final line
    terminator;
  - the version test.

  Each search is proved equal to a declarative statement of what the regex
  matches. `isVersion` lives here, beside the version pattern.
- `PRIssue`: the record, `addLink`/`addAuthor`, `getGitHubTags`, the
  classification loop, `parseMetaData` as a step-by-step method proved equal to a
  functional `Parse`, and the category remapping.
- `IssueCache`: the four lazy getters as a state machine over the four nullable
  fields and a count of parses.
- `Scenarios`: worked bodies evaluated through the general lemmas.

`Util.formatChangeText` is not part of this model. It appears as a function
parameter `fmt`, applied to the message and the list of suffixes.

Three behaviours of `parseMetaData` that a reader may not expect:

- The message is extracted whether or not a metadata bracket is present, because
  `MESSAGE_PATTERN`'s bracket is optional.
- `replaceAll("")` removes one match, running from the first marker to the end of
  the body, because `(.*)$` under DOTALL takes the rest of the input.
- A null body is not treated as "no directive": `matcher(null)` throws. Bodies are
  modelled as non-null strings.

## Model

| member | source | states |
|---|---|---|
| JavaStrings.Trim | src/main/java/org/neo4j/changelog/github/PRIssue.java:143-145 | trim() never lengthens its input, leaves no character up to U+0020 at either end, and is empty exactly when every character is one; TrimPadding gives the exact result |
| JavaStrings.JavaSplit | src/main/java/org/neo4j/changelog/github/PRIssue.java:139 | split(",") gives the string alone when it has no comma, and otherwise the full cut at every comma with only empty trailing pieces dropped; SplitJoin states the cut's inverse |
| JavaStrings.TrimPadding | src/main/java/org/neo4j/changelog/github/PRIssue.java:143-145 | trim() of a core with solid ends, padded on both sides by characters up to U+0020, is exactly that core |
| JavaStrings.TrimIdempotent | src/main/java/org/neo4j/changelog/github/PRIssue.java:143-145 | trimming a trimmed string changes nothing |
| JavaStrings.SplitJoin | src/main/java/org/neo4j/changelog/github/PRIssue.java:139 | cutting at every separator inverts joining separator-free pieces |
| JavaStrings.SplitTwoPieces | src/main/java/org/neo4j/changelog/github/PRIssue.java:139 | split(",") of two comma-free pieces, the second non-empty, gives exactly those two pieces |
| JavaStrings.FormatInt | src/main/java/org/neo4j/changelog/github/PRIssue.java:121-125 | `%d` (also in addLink, line 183) yields a minus sign exactly for negative numbers, then decimal digits whose value is the magnitude, without leading zeros; by FormatNatCanonical only one text meets this |
| JavaStrings.FormatNatValue | src/main/java/org/neo4j/changelog/github/PRIssue.java:121-125 | reading back the printed digits gives the number |
| JavaStrings.FormatNatCanonical | src/main/java/org/neo4j/changelog/github/PRIssue.java:121-125 | a digit string without leading zeros is the rendering of its own value, so the printed number is unique |
| Patterns.FirstDirectiveFrom | src/main/java/org/neo4j/changelog/github/PRIssue.java:108-109 | find() from an index returns the least index where a line starts with `cl` or `changelog` followed by a non-word character, or none when no such index exists |
| Patterns.FindDirective | src/main/java/org/neo4j/changelog/github/PRIssue.java:108-111 | with the pattern of lines 16-17, a directive exists exactly when some line opens with a marker; group 2 is the body after the greedy run of whitespace and colons that follows the first marker |
| Patterns.DirectiveAtBodyStart | src/main/java/org/neo4j/changelog/github/PRIssue.java:108-111 | a body opening with a marker word, a separator run and text not starting with a separator has its directive at 0 with that text as group 2 |
| Patterns.ClWordIsNotAMarker | src/main/java/org/neo4j/changelog/github/PRIssue.java:16 | a word that merely starts with `cl` (such as `class`) is not a directive, because `\b` fails |
| Patterns.StripDirectives | src/main/java/org/neo4j/changelog/github/PRIssue.java:150-151 | replaceAll("") leaves the body unchanged without a directive, and otherwise the body up to the first marker |
| Patterns.ReplaceAllFrom | src/main/java/org/neo4j/changelog/github/PRIssue.java:151 | replaceAll("") from an index, with each match running to the end of the body; its meaning is stated by StripDirectives and StrippedBodyHasNoDirective |
| Patterns.StrippedBodyHasNoDirective | src/main/java/org/neo4j/changelog/github/PRIssue.java:150-151 | the body text left after replaceAll holds no directive |
| Patterns.MetadataOf | src/main/java/org/neo4j/changelog/github/PRIssue.java:136-138 | group 1 exists exactly when the remainder opens with a bracket that closes before any line terminator; it is the interior up to the first `]` |
| Patterns.MetadataOfClosed | src/main/java/org/neo4j/changelog/github/PRIssue.java:136-138 | a one-line bracket with no `]` inside yields its interior as metadata |
| Patterns.MetadataOfOpenLine | src/main/java/org/neo4j/changelog/github/PRIssue.java:136-138 | a bracket spanning a line terminator yields no metadata, because `.` stops at line ends |
| Patterns.MetadataBracketIsMessageBracket | src/main/java/org/neo4j/changelog/github/PRIssue.java:18-20 | when a metadata bracket exists, the message extractor skips the same bracket |
| Patterns.AfterBracket | src/main/java/org/neo4j/changelog/github/PRIssue.java:20 | MESSAGE_PATTERN's optional `(?:\[.*?])?`: when a leading `[` closes at a `]`, the text after that first `]`, otherwise the remainder unchanged |
| Patterns.MessageOf | src/main/java/org/neo4j/changelog/github/PRIssue.java:114-117 | group 1 of MESSAGE_PATTERN (line 20) on the remainder; its meaning is stated by BeforeDollarIsLazy, UnpaddedPadding and MessageSkipsBracket |
| Patterns.BeforeDollarIsLazy | src/main/java/org/neo4j/changelog/github/PRIssue.java:114-117 | the capture is followed by `\s*$`, and no shorter capture is: the lazy `(.*?)` |
| Patterns.UnpaddedPadding | src/main/java/org/neo4j/changelog/github/PRIssue.java:114-117 | a core with non-space ends, padded by `\s` on both sides, is captured exactly |
| Patterns.MessageSkipsBracket | src/main/java/org/neo4j/changelog/github/PRIssue.java:114-117 | after a leading bracket, which may span lines, the message is the capture of the text after `]` |
| Patterns.IsVersion | src/main/java/org/neo4j/changelog/github/PRIssue.java:159-161 | isVersion: a piece of `\s`, `digits.digits` and `\s`; IsVersionMatchesPattern proves it equal to a match of VERSION_PATTERN (line 19) |
| Patterns.IsVersionMatchesPattern | src/main/java/org/neo4j/changelog/github/PRIssue.java:159-161 | isVersion holds exactly when some match of `^\s*\d+\.\d+\s*$` exists in the piece |
| Patterns.VersionPieceTrims | src/main/java/org/neo4j/changelog/github/PRIssue.java:142-143 | a one-line version piece trims to its `digits.digits` core |
| PRIssue.GitHubTags | src/main/java/org/neo4j/changelog/github/PRIssue.java:74-79 | getGitHubTags(): the labels, or an empty list when they are null; LabelFallback states its use as the label fallback |
| PRIssue.AddLink | src/main/java/org/neo4j/changelog/github/PRIssue.java:182-184 | addLink: the trimmed text, a space, `[\#<number>](<html_url>)`; DecoratedTitleShape gives its result inside the decorated title, and FormatInt the number's text |
| PRIssue.AddAuthor | src/main/java/org/neo4j/changelog/github/PRIssue.java:186-188 | addAuthor: the trimmed text, a space, `([<username>](<userlink>))`; DecoratedTitleShape gives its result inside the decorated title |
| PRIssue.DecoratedTitle | src/main/java/org/neo4j/changelog/github/PRIssue.java:99-105 | the title, then addLink when includeLink is set, then addAuthor when includeAuthor is set; DecoratedTitleShape gives its closed forms |
| PRIssue.Header | src/main/java/org/neo4j/changelog/github/PRIssue.java:113-133 | the header: the decorated title unless the directive's message is non-blank, then formatChangeText of the message and suffixes; stated by SuffixesCases, BlankMessageKeepsTitle and OverrideIgnoresTitle |
| PRIssue.SuffixesCases | src/main/java/org/neo4j/changelog/github/PRIssue.java:119-131 | the four flag combinations pass link and author suffixes in that order, each only when its flag is set |
| PRIssue.DecoratedTitleShape | src/main/java/org/neo4j/changelog/github/PRIssue.java:99-105 | addLink and addAuthor (lines 182-188) applied in turn give the decorated title in closed form for each flag combination, including a blank title, which leaves no leading space when both flags are set (one flag alone keeps that space) |
| PRIssue.Parse | src/main/java/org/neo4j/changelog/github/PRIssue.java:96-157 | the four results of parseMetaData as one function; ParseMetaData is proved equal to it, and BodyTextIsPrefixBeforeMarker, LabelFallback and VersionFilterShape state its fields |
| PRIssue.ClassifyOnePiece | src/main/java/org/neo4j/changelog/github/PRIssue.java:141-147 | a version piece goes trimmed to the versions, a non-blank other piece trimmed to the labels, a blank piece nowhere |
| PRIssue.TokensAppend | src/main/java/org/neo4j/changelog/github/PRIssue.java:141-147 | classification distributes over concatenation, so the order of pieces is kept |
| PRIssue.JavaSplitKeepsTokens | src/main/java/org/neo4j/changelog/github/PRIssue.java:139 | dropping trailing empty pieces in split(",") changes neither filter |
| PRIssue.ClassifyParts | src/main/java/org/neo4j/changelog/github/PRIssue.java:139-147 | the loop over the pieces builds exactly the version tokens and the label tokens |
| PRIssue.ParseMetaData | src/main/java/org/neo4j/changelog/github/PRIssue.java:96-157 | the step-by-step method, with its four-way suffix choice, computes the same four results as `Parse` |
| PRIssue.NoDirectiveParse | src/main/java/org/neo4j/changelog/github/PRIssue.java:96-107 | a body in which no line opens with a marker gives no versions, the GitHub labels (the fallback of lines 154-156), the decorated title and the body unchanged, for every input and formatter |
| PRIssue.BodyTextIsPrefixBeforeMarker | src/main/java/org/neo4j/changelog/github/PRIssue.java:150-151 | the body text is a prefix of the body, is the whole body exactly when there is no directive, and holds no directive |
| PRIssue.LabelFallback | src/main/java/org/neo4j/changelog/github/PRIssue.java:154-156 | the label filter is the GitHub labels exactly when no metadata piece is a label piece, otherwise the non-empty label tokens; null labels give an empty list |
| PRIssue.VersionFilterShape | src/main/java/org/neo4j/changelog/github/PRIssue.java:136-147 | every version token is a bare `digits.digits`, and the version filter is empty without a directive or without a bracket |
| PRIssue.LeadingDirectiveParse | src/main/java/org/neo4j/changelog/github/PRIssue.java:108-151 | a body opening with marker, separator and one-line bracket: the filters come from the bracket, the header from the text after it, and the body text is empty |
| PRIssue.LeadingMultiLineBracketParse | src/main/java/org/neo4j/changelog/github/PRIssue.java:113-151 | a leading bracket spanning lines gives no tokens, yet the message after it still sets the header |
| PRIssue.LeadingMessageParse | src/main/java/org/neo4j/changelog/github/PRIssue.java:108-156 | a directive without a bracket gives no tokens, the GitHub labels, the header from its message and an empty body text |
| PRIssue.BlankMessageKeepsTitle | src/main/java/org/neo4j/changelog/github/PRIssue.java:99-118 | a directive whose message is blank leaves the header as a body without any directive would, whatever formatChangeText does |
| PRIssue.OverrideIgnoresTitle | src/main/java/org/neo4j/changelog/github/PRIssue.java:113-131 | a non-blank message replaces the title, so the title does not affect the header; with both flags off neither do the link and author fields |
| PRIssue.RemapLabels | src/main/java/org/neo4j/changelog/github/PRIssue.java:60-63 | same length and order; each name becomes its category when the map has one, and stays as it is otherwise |
| PRIssue.FromGitHub | src/main/java/org/neo4j/changelog/github/PRIssue.java:56-65 | number, title, body and html_url come from the pull request, username and userlink from the issue's user, the two flags as passed, and the labels are the remapped names |
| PRIssue.FromGitHubWithoutCategories | src/main/java/org/neo4j/changelog/github/PRIssue.java:56-65 | with an empty category map, the tags are the issue's label names, unchanged and in order |
| IssueCache.Get | src/main/java/org/neo4j/changelog/github/PRIssue.java:89-94 | from a coherent cache, one getter (here getVersionFilter, and likewise the other three) returns its field of the parse of the object's fields, keeps the cache coherent and leaves exactly one parse done |
| IssueCache.RunKeepsCoherent | src/main/java/org/neo4j/changelog/github/PRIssue.java:163-179 | any run of getters keeps the object's fields and the invariant, and parses at most once |
| IssueCache.GettersAgree | src/main/java/org/neo4j/changelog/github/PRIssue.java:163-197 | in any order and any number of calls, each getter's answer is its field of `Parse` of the object's fields, so all four getters agree on one parse |
| IssueCache.FreshGettersAgree | src/main/java/org/neo4j/changelog/github/PRIssue.java:32-35 | a freshly constructed object, with all four fields null, satisfies the invariant, so the above holds from construction |
| Scenarios.VersionLabelDirective | src/main/java/org/neo4j/changelog/github/PRIssue.java:108-151 | `<marker><sep>[<version>, <name>] <message>` gives the version, the name as label, the message as header, and an empty body text |
| Scenarios.VersionLabelAndMessage | src/main/java/org/neo4j/changelog/github/PRIssue.java:108-151 | `cl: [3.5, Bug] Fixed race in scheduler` gives `["3.5"]`, `["Bug"]`, the formatted message and an empty body text |
| Scenarios.MessageWithoutBracket | src/main/java/org/neo4j/changelog/github/PRIssue.java:108-156 | `changelog Improved startup time` gives no versions, the GitHub labels, the formatted message and an empty body text |
| Scenarios.BareMarker | src/main/java/org/neo4j/changelog/github/PRIssue.java:99-156 | a body that is just `cl` keeps the decorated title, falls back to the GitHub labels and leaves an empty body text |
| Scenarios.ControlCharVersionIsALabel | src/main/java/org/neo4j/changelog/github/PRIssue.java:142-145 | with the pattern of line 19, a piece `\u0001` followed by `3.5` fails the version test (U+0001 is not `\s`), yet trim() removes U+0001, so `3.5` lands in the label filter |

## Left out

- Patterns.FindDirective: the word test of `\b` covers ASCII letters, digits and `_` only. In Java 8 to 18, `\b` also counts every Unicode letter or digit, and combining marks, as word characters. So for the body `clé fix` Java finds no directive, while the model finds one with remainder `é fix`. Case folding is ASCII, as `CASE_INSENSITIVE` without `UNICODE_CASE` is.
- PRIssue.DecoratedTitle: `title`, `html_url`, `username` and `userlink` are non-null strings in the model. In Java a null title with both flags off leaves the header null. With a flag set, a null title throws in `text.trim()`. A null user field prints as `null` through `%s`.
- IssueCache.GettersAgree: the re-parse that follows a null header is not modelled. That header arises only from a null title. Every parse in the model fills all four fields with non-null values.
- PRIssue.Parse: a null body is not modelled; `matcher(null)` throws.
- JavaStrings.FormatInt: `%d` is rendered with ASCII digits and an ASCII minus sign, whatever the default locale.
- JavaStrings.Trim: a Dafny string is a sequence of Unicode scalar values, not UTF-16 code units. Surrogate pairs and unpaired surrogates are not modelled.
- PRIssue.RemapLabels: the category map cannot hold null values, and label names are non-null.
- PRIssue.Header: `Util.formatChangeText` is not part of this model; it is the parameter `fmt`.
- PRIssue.FromGitHub: the fields `merged_at`, `head` and `base` are dropped, and so are the accessors `getNumber` and `getCommit`, which parsing does not read.
- Patterns.ReplaceAllFrom: where a match ends is not computed. It is taken to be the end of the body, because the greedy DOTALL `(.*)` first tries the whole rest of the input, where `$` matches.
- IssueCache.Get: the object is an immutable state returned by each getter. Aliasing of the returned lists and concurrent calls to the getters are not modelled.

=== FILE: chars.dfy ===
/**
 Character classes used by the fixed patterns of PRIssue and by java.lang.String.
 Only the ASCII behaviour of java.util.regex is modelled (no UNICODE_CASE,
 no UNICODE_CHARACTER_CLASS).
 */
module CharClasses {

  /** Regex `\s`: [ \t\n\x0B\f\r]. */
  predicate IsRegexSpace(c: char) {
    c == ' ' || c == '\t' || c == '\n' || c == '\U{B}' || c == '\U{C}' || c == '\r'
  }

  /** Regex `\d`: ASCII digits. */
  predicate IsDigit(c: char) {
    '0' <= c <= '9'
  }

  /**
   The word test of `\b`, restricted to ASCII letters, digits and `_`. java.util.regex
   (Java 8 to 18) also counts every Unicode letter or digit and combining marks as
   word characters; this model does not.
   */
  predicate IsWordChar(c: char) {
    'a' <= c <= 'z' || 'A' <= c <= 'Z' || IsDigit(c) || c == '_'
  }

  /** The line terminators of java.util.regex when UNIX_LINES is off. */
  predicate IsLineTerminator(c: char) {
    c == '\n' || c == '\r' || c == '\U{85}' || c == '\U{2028}' || c == '\U{2029}'
  }

  /** A line terminator that `\s` does not match (NEL, LINE SEPARATOR, PARAGRAPH SEPARATOR). */
  predicate IsWideTerminator(c: char) {
    IsLineTerminator(c) && !IsRegexSpace(c)
  }

  /** What String.trim() strips: every character up to U+0020. */
  predicate IsTrimmable(c: char) {
    c <= ' '
  }

  /** The class `[\s:]` that follows the directive marker. */
  predicate IsSpaceOrColon(c: char) {
    IsRegexSpace(c) || c == ':'
  }

  /** ASCII lower-casing, as CASE_INSENSITIVE without UNICODE_CASE folds. */
  function ToLowerAscii(c: char): (r: char)
    ensures 'A' <= c <= 'Z' ==> 'a' <= r <= 'z'
    ensures !('A' <= c <= 'Z') ==> r == c
  {
    if 'A' <= c <= 'Z' then (c as int + 32) as char else c
  }
}

=== FILE: issue_cache.dfy ===
/**
 The four lazy getters of PRIssue. Each getter checks its own cached field and,
 when it is still null, runs parseMetaData, which fills all four fields at once.
 The object is modelled as an immutable state that every getter returns updated;
 a parse stores Parse of the object's final fields, with formatChangeText as `fmt`.
 */
module IssueCache {
  import opened Options
  import opened PRIssue

  /** The issue, its four nullable cached fields, and how often parseMetaData has run. */
  datatype State = State(
    issue: Issue,
    versionFilter: Option<seq<string>>,
    labelFilter: Option<seq<string>>,
    header: Option<string>,
    bodyText: Option<string>,
    parses: nat)

  /** A freshly constructed PRIssue: nothing cached, nothing parsed. */
  function Fresh(issue: Issue): State {
    State(issue, None, None, None, None, 0)
  }

  /** The class invariant: the cache is empty, or holds the results of the one parse there has been. */
  predicate Coherent(s: State, fmt: Formatter) {
    var p := Parse(s.issue, fmt);
    || (s.parses == 0 && s.versionFilter.None? && s.labelFilter.None? && s.header.None? && s.bodyText.None?)
    || (&& s.parses == 1
        && s.versionFilter == Some(p.versionFilter)
        && s.labelFilter == Some(p.labelFilter)
        && s.header == Some(p.header)
        && s.bodyText == Some(p.bodyText))
  }

  /** parseMetaData run on the object: all four fields assigned from one parse. */
  function Fill(s: State, fmt: Formatter): State {
    var p := Parse(s.issue, fmt);
    State(s.issue, Some(p.versionFilter), Some(p.labelFilter), Some(p.header), Some(p.bodyText), s.parses + 1)
  }

  datatype Getter = GetVersionFilter | GetLabelFilter | GetChangeTextHeader | GetChangeTextBody

  /** What a getter hands back: a list or a string. */
  datatype Answer = Tokens(tokens: seq<string>) | Text(text: string)

  /** The answer a getter owes, read off one parse. */
  function Expected(p: Parsed, g: Getter): Answer {
    match g
    case GetVersionFilter => Tokens(p.versionFilter)
    case GetLabelFilter => Tokens(p.labelFilter)
    case GetChangeTextHeader => Text(p.header)
    case GetChangeTextBody => Text(p.bodyText)
  }

  /**
   One getter call: parse if this getter's field is still null, then return the
   field. Whatever was cached before, the answer is the parse of the object's
   fields, the invariant still holds, and the body has been parsed exactly once.
   */
  function Get(s: State, g: Getter, fmt: Formatter): (r: (Answer, State))
    requires Coherent(s, fmt)
    ensures r.0 == Expected(Parse(s.issue, fmt), g)
    ensures r.1.issue == s.issue && Coherent(r.1, fmt) && r.1.parses == 1
  {
    match g
    case GetVersionFilter =>
      var s' := if s.versionFilter.None? then Fill(s, fmt) else s;
      (Tokens(s'.versionFilter.value), s')
    case GetLabelFilter =>
      var s' := if s.labelFilter.None? then Fill(s, fmt) else s;
      (Tokens(s'.labelFilter.value), s')
    case GetChangeTextHeader =>
      var s' := if s.header.None? then Fill(s, fmt) else s;
      (Text(s'.header.value), s')
    case GetChangeTextBody =>
      var s' := if s.bodyText.None? then Fill(s, fmt) else s;
      (Text(s'.bodyText.value), s')
  }

  /** A sequence of getter calls on one object: the answers in order and the final state. */
  function Run(s: State, calls: seq<Getter>, fmt: Formatter): (seq<Answer>, State)
    requires Coherent(s, fmt)
    decreases |calls|
  {
    if |calls| == 0 then ([], s)
    else
      var (a, s') := Get(s, calls[0], fmt);
      var (rest, final) := Run(s', calls[1..], fmt);
      ([a] + rest, final)
  }

  /** Any run of getters keeps the issue and the invariant, answers once per call, and parses at most once. */
  lemma {:induction false} RunKeepsCoherent(s: State, calls: seq<Getter>, fmt: Formatter)
    requires Coherent(s, fmt)
    ensures |Run(s, calls, fmt).0| == |calls|
    ensures Run(s, calls, fmt).1.issue == s.issue && Coherent(Run(s, calls, fmt).1, fmt)
    ensures Run(s, calls, fmt).1.parses == (if |calls| == 0 then s.parses else 1)
    decreases |calls|
  {
    if |calls| > 0 {
      var r := Get(s, calls[0], fmt);
      RunKeepsCoherent(r.1, calls[1..], fmt);
    }
  }

  /**
   Getter consistency: in any order and however often the getters are called,
   every answer is the parse of the object's fields (RunKeepsCoherent adds that
   the body is parsed at most once).
   */
  lemma {:induction false} GettersAgree(s: State, calls: seq<Getter>, fmt: Formatter)
    requires Coherent(s, fmt)
    ensures |Run(s, calls, fmt).0| == |calls|
    ensures forall k :: 0 <= k < |calls| ==> Run(s, calls, fmt).0[k] == Expected(Parse(s.issue, fmt), calls[k])
    decreases |calls|
  {
    RunKeepsCoherent(s, calls, fmt);
    if |calls| > 0 {
      var r := Get(s, calls[0], fmt);
      GettersAgree(r.1, calls[1..], fmt);
      var answers := Run(s, calls, fmt).0;
      var rest := Run(r.1, calls[1..], fmt).0;
      assert answers == [r.0] + rest;
      forall k | 0 < k < |calls| ensures answers[k] == Expected(Parse(s.issue, fmt), calls[k]) {
        assert answers[k] == rest[k - 1] && calls[1..][k - 1] == calls[k];
      }
    }
  }

  /**
   A freshly constructed object satisfies the invariant, so GettersAgree applies
   from construction on: any run of getters answers with the fields of the
   object's parse and parses the body at most once.
   */
  lemma FreshGettersAgree(issue: Issue, fmt: Formatter, calls: seq<Getter>)
    ensures Coherent(Fresh(issue), fmt)
    ensures |Run(Fresh(issue), calls, fmt).0| == |calls|
    ensures forall k :: 0 <= k < |calls| ==> Run(Fresh(issue), calls, fmt).0[k] == Expected(Parse(issue, fmt), calls[k])
    ensures Run(Fresh(issue), calls, fmt).1.parses <= 1
  {
    RunKeepsCoherent(Fresh(issue), calls, fmt);
    GettersAgree(Fresh(issue), calls, fmt);
  }
}

=== FILE: options.dfy ===
/** A value that may be absent: Java's nullable references and failed regex matches. */
module Options {

  datatype Option<+T> = None | Some(value: T) {

    /** The value, or `default` when absent. */
    function GetOr(default: T): T {
      match this
      case Some(v) => v
      case None => default
    }
  }
}

=== FILE: patterns.dfy ===
/**
 The four fixed patterns of PRIssue, each written out as string functions:

   CHANGELOG_PATTERN  ^(cl|changelog)\b[\s:]*(.*)$   CASE_INSENSITIVE | MULTILINE | DOTALL
   METADATA_PATTERN   ^\[(.*?)]
   VERSION_PATTERN    ^\s*\d+\.\d+\s*$
   MESSAGE_PATTERN    ^(?:\[.*?])?\s*(.*?)\s*$        DOTALL

 Matching follows java.util.regex with ASCII character classes.
 */
module Patterns {
  import opened Options
  import opened CharClasses
  import opened JavaStrings

  // ==== CHANGELOG_PATTERN: the directive detector ==============================

  /**
   MULTILINE `^` at index `i`: the start of input or just after a line terminator,
   never between `\r` and `\n`, and never at the very end of the input.
   */
  predicate LineStart(s: string, i: nat) {
    i < |s| && (i == 0 || (IsLineTerminator(s[i - 1]) && !(s[i - 1] == '\r' && s[i] == '\n')))
  }

  /** The lower-case `word` occurs at index `i` of `s` under ASCII case folding. */
  predicate MatchesIgnoreCase(s: string, i: nat, word: string) {
    i + |word| <= |s| && forall k :: 0 <= k < |word| ==> ToLowerAscii(s[i + k]) == word[k]
  }

  /** `\b` right after a word character: the input ends or a non-word character follows. */
  predicate WordEndsAt(s: string, j: nat) {
    j >= |s| || !IsWordChar(s[j])
  }

  /** `word\b` matches at index `i`. */
  predicate MarkerAt(s: string, i: nat, word: string) {
    MatchesIgnoreCase(s, i, word) && WordEndsAt(s, i + |word|)
  }

  /** Length of the marker `(cl|changelog)\b` at `i`, alternatives tried in order; 0 when neither matches. */
  function MarkerLength(s: string, i: nat): (n: nat)
    ensures n == 0 || n == 2 || n == 9
    ensures n > 0 ==> i + n <= |s|
  {
    if MarkerAt(s, i, "cl") then 2 else if MarkerAt(s, i, "changelog") then 9 else 0
  }

  /** The directive detector matches at index `i` (its tail `[\s:]*(.*)$` always matches). */
  predicate DirectiveAt(s: string, i: nat) {
    LineStart(s, i) && MarkerLength(s, i) > 0
  }

  /** Matcher.find() from `from`: the least index at or after `from` where the detector matches. */
  function FirstDirectiveFrom(s: string, from: nat): (r: Option<nat>)
    requires from <= |s|
    ensures r.Some? ==> from <= r.value < |s| && DirectiveAt(s, r.value)
    ensures r.Some? ==> forall j :: from <= j < r.value ==> !DirectiveAt(s, j)
    ensures r.None? ==> forall j :: from <= j < |s| ==> !DirectiveAt(s, j)
    decreases |s| - from
  {
    if from == |s| then None
    else if DirectiveAt(s, from) then Some(from)
    else FirstDirectiveFrom(s, from + 1)
  }

  /** A found directive: where its marker starts, and group 2 of the detector. */
  datatype Directive = Directive(start: nat, rest: string)

  /**
   The first directive of `body`. Its `rest` is everything after the marker and
   the greedy run of whitespace and colons, up to the end of the body.
   */
  function FindDirective(body: string): (r: Option<Directive>)
    ensures r.Some? <==> exists i :: 0 <= i < |body| && DirectiveAt(body, i)
    ensures r.Some? ==> DirectiveAt(body, r.value.start)
    ensures r.Some? ==> forall j :: 0 <= j < r.value.start ==> !DirectiveAt(body, j)
    ensures r.Some? ==>
      var m := r.value.start + MarkerLength(body, r.value.start);
      var k := |body| - |r.value.rest|;
      && m <= k
      && r.value.rest == body[k..]
      && (forall j :: m <= j < k ==> IsSpaceOrColon(body[j]))
      && (k < |body| ==> !IsSpaceOrColon(body[k]))
  {
    match FirstDirectiveFrom(body, 0)
    case None => None
    case Some(i) =>
      var m := i + MarkerLength(body, i);
      var n := LeadingRun(body[m..], IsSpaceOrColon);
      SeparatorRun(body, m);
      Some(Directive(i, body[m + n..]))
  }

  /** The greedy `[\s:]*` run starting at `m`, read off the body itself. */
  lemma SeparatorRun(body: string, m: nat)
    requires m <= |body|
    ensures var k := m + LeadingRun(body[m..], IsSpaceOrColon);
      && k <= |body|
      && (forall j :: m <= j < k ==> IsSpaceOrColon(body[j]))
      && (k < |body| ==> !IsSpaceOrColon(body[k]))
  {
    var tail := body[m..];
    var n := LeadingRun(tail, IsSpaceOrColon);
    assert tail[..n] == body[m..m + n];
    assert n < |tail| ==> tail[n] == body[m + n];
  }

  /**
   Matcher.replaceAll("") from `from`: copies the text between successive matches.
   Where a match ends is not computed: the definition takes it to be the end of
   the body, on the reading that the greedy DOTALL `(.*)` first tries the whole
   rest of the input and `$` matches at its end, so that first attempt succeeds.
   */
  function ReplaceAllFrom(body: string, from: nat): string
    requires from <= |body|
    decreases |body| - from
  {
    match FirstDirectiveFrom(body, from)
    case None => body[from..]
    case Some(i) => body[from..i] + ReplaceAllFrom(body, |body|)
  }

  /**
   The body with every directive match removed. The first match swallows the rest
   of the body, so what remains is exactly the text before the first marker.
   */
  function StripDirectives(body: string): (r: string)
    ensures r <= body
    ensures FindDirective(body).None? ==> r == body
    ensures FindDirective(body).Some? ==> r == body[..FindDirective(body).value.start]
  {
    assert ReplaceAllFrom(body, |body|) == [];
    ReplaceAllFrom(body, 0)
  }

  /** A prefix ending in a line terminator has no directive that the whole text lacks. */
  lemma DirectiveInPrefix(body: string, n: nat, j: nat)
    requires 0 < n <= |body| && IsLineTerminator(body[n - 1]) && j < n
    ensures DirectiveAt(body[..n], j) ==> DirectiveAt(body, j)
  {
    var p := body[..n];
    if MarkerAt(p, j, "cl") {
      assert "cl"[1] == 'l';
      assert MarkerAt(body, j, "cl");
    }
    if MarkerAt(p, j, "changelog") {
      assert "changelog"[8] == 'g';
      assert MarkerAt(body, j, "changelog");
    }
  }

  /** Once stripped, the body holds no directive any more. */
  lemma {:induction false} StrippedBodyHasNoDirective(body: string)
    ensures FindDirective(StripDirectives(body)).None?
  {
    match FindDirective(body)
    case None =>
    case Some(d) =>
      var p := StripDirectives(body);
      assert p == body[..d.start];
      if d.start > 0 {
        forall j | 0 <= j < |p| ensures !DirectiveAt(p, j) {
          DirectiveInPrefix(body, d.start, j);
        }
      }
  }

  /** A marker word: `cl` or `changelog` in any ASCII case. */
  predicate IsMarkerWord(word: string) {
    || (|word| == 2 && MatchesIgnoreCase(word, 0, "cl"))
    || (|word| == 9 && MatchesIgnoreCase(word, 0, "changelog"))
  }

  /**
   A body that opens with a marker word, not followed by a word character, then a
   run of whitespace and colons, has its directive at the start, and the
   directive's remainder is everything after that run.
   */
  lemma DirectiveAtBodyStart(word: string, sep: string, rest: string)
    requires IsMarkerWord(word)
    requires All(sep, IsSpaceOrColon)
    requires |rest| == 0 || !IsSpaceOrColon(rest[0])
    requires WordEndsAt(word + sep + rest, |word|)
    ensures FindDirective(word + sep + rest) == Some(Directive(0, rest))
  {
    var body := word + sep + rest;
    MarkerWordAtStart(body, word);
    var m := |word|;
    assert body[m..] == sep + rest;
    SeparatorThenRest(sep, rest);
    assert body[m + |sep|..] == rest;
  }

  /** A marker word at the start of the body, not followed by a word character, is the first directive. */
  lemma MarkerWordAtStart(body: string, word: string)
    requires IsMarkerWord(word) && word <= body && WordEndsAt(body, |word|)
    ensures FirstDirectiveFrom(body, 0) == Some(0) && MarkerLength(body, 0) == |word|
  {
    assert forall k :: 0 <= k < |word| ==> body[k] == word[k];
    if |word| == 2 {
      assert MarkerAt(body, 0, "cl");
    } else {
      assert "cl"[1] == 'l' && "changelog"[1] == 'h';
      assert ToLowerAscii(body[1]) == 'h';
      assert MarkerAt(body, 0, "changelog");
    }
  }

  /** The greedy `[\s:]*` run over a separator followed by a text that does not open with one stops at the text. */
  lemma SeparatorThenRest(sep: string, rest: string)
    requires All(sep, IsSpaceOrColon)
    requires |rest| == 0 || !IsSpaceOrColon(rest[0])
    ensures LeadingRun(sep + rest, IsSpaceOrColon) == |sep|
  {
    assert (sep + rest)[..|sep|] == sep;
    LeadingRunUnique(sep + rest, IsSpaceOrColon, |sep|);
  }

  /** A line opening with a word that merely starts with `cl` (`class`, `clean`) is no directive. */
  lemma ClWordIsNotAMarker(s: string, i: nat)
    requires LineStart(s, i) && MatchesIgnoreCase(s, i, "cl") && i + 2 < |s| && IsWordChar(s[i + 2])
    ensures !DirectiveAt(s, i)
  {
    assert "cl"[1] == 'l' && "changelog"[1] == 'h';
  }

  // ==== The bracket `\[.*?]` at the start of the captured remainder ==========

  /**
   `\[.*?]` matches `rest[..j + 1]`: `j` is the first `]` after the opening `[`,
   and without DOTALL no line terminator may come before it.
   */
  predicate BracketClosesAt(rest: string, j: nat, dotAll: bool) {
    && 1 <= j < |rest| && rest[0] == '[' && rest[j] == ']'
    && forall k :: 1 <= k < j ==> rest[k] != ']' && (dotAll || !IsLineTerminator(rest[k]))
  }

  /** The first index at or after `from` holding `c`. */
  function FirstIndexFrom(s: string, from: nat, c: char): (r: Option<nat>)
    requires from <= |s|
    ensures r.Some? ==> from <= r.value < |s| && s[r.value] == c
    ensures r.Some? ==> forall k :: from <= k < r.value ==> s[k] != c
    ensures r.None? ==> forall k :: from <= k < |s| ==> s[k] != c
    decreases |s| - from
  {
    if from == |s| then None
    else if s[from] == c then Some(from)
    else FirstIndexFrom(s, from + 1, c)
  }

  /** Where the lazy bracket `\[.*?]` closes, if it matches at all. */
  function BracketClose(rest: string, dotAll: bool): (r: Option<nat>)
    ensures r.Some? ==> BracketClosesAt(rest, r.value, dotAll)
    ensures r.None? ==> forall j :: !BracketClosesAt(rest, j, dotAll)
  {
    if |rest| == 0 || rest[0] != '[' then None
    else
      match FirstIndexFrom(rest, 1, ']')
      case None => None
      case Some(j) =>
        if dotAll || forall k :: 1 <= k < j ==> !IsLineTerminator(rest[k]) then Some(j) else None
  }

  // ==== METADATA_PATTERN: the metadata bracket ================================

  /**
   Group 1 of `^\[(.*?)]` (no DOTALL): the interior of a bracket that opens the
   remainder and closes, at its first `]`, on the same line.
   */
  function MetadataOf(rest: string): (r: Option<string>)
    ensures r.Some? <==> exists j :: BracketClosesAt(rest, j, false)
    ensures r.Some? ==> |r.value| + 2 <= |rest| && rest[..|r.value| + 2] == "[" + r.value + "]"
    ensures r.Some? ==> forall k :: 0 <= k < |r.value| ==> r.value[k] != ']' && !IsLineTerminator(r.value[k])
  {
    match BracketClose(rest, false)
    case None => None
    case Some(j) =>
      assert rest[..j + 1] == "[" + rest[1..j] + "]";
      Some(rest[1..j])
  }

  /** A bracket that opens the remainder and closes on the same line yields its interior as metadata. */
  lemma MetadataOfClosed(inner: string, text: string)
    requires forall k :: 0 <= k < |inner| ==> inner[k] != ']' && !IsLineTerminator(inner[k])
    ensures MetadataOf("[" + inner + "]" + text) == Some(inner)
  {
    var rest := "[" + inner + "]" + text;
    var j := |inner| + 1;
    assert BracketClosesAt(rest, j, false) by {
      assert rest[0] == '[' && rest[j] == ']';
      forall k | 1 <= k < j ensures rest[k] != ']' && !IsLineTerminator(rest[k]) {
        assert rest[k] == inner[k - 1];
      }
    }
    assert rest[1..j] == inner;
  }

  /** A bracket whose first closing `]` lies beyond a line terminator yields no metadata. */
  lemma MetadataOfOpenLine(inner: string, text: string, n: nat)
    requires forall k :: 0 <= k < |inner| ==> inner[k] != ']'
    requires n < |inner| && IsLineTerminator(inner[n])
    ensures MetadataOf("[" + inner + "]" + text) == None
  {
    var rest := "[" + inner + "]" + text;
    forall j | 1 <= j <= |inner| ensures rest[j] != ']' {
      assert rest[j] == inner[j - 1];
    }
    assert rest[n + 1] == inner[n];
    assert forall j: nat :: !BracketClosesAt(rest, j, false);
  }

  // ==== MESSAGE_PATTERN: the message extractor ================================

  /** The remainder after MESSAGE_PATTERN's optional `(?:\[.*?])?`, taken whenever it can close. */
  function AfterBracket(rest: string): (r: string)
    ensures (exists j :: BracketClosesAt(rest, j, true)) ==> |r| < |rest| && r == rest[|rest| - |r|..]
    ensures forall j :: BracketClosesAt(rest, j, true) ==> r == rest[j + 1..]
    ensures (forall j :: !BracketClosesAt(rest, j, true)) ==> r == rest
  {
    match BracketClose(rest, true)
    case None => rest
    case Some(j) => rest[j + 1..]
  }

  /** A metadata bracket is also the bracket the message extractor skips. */
  lemma MetadataBracketIsMessageBracket(rest: string)
    requires MetadataOf(rest).Some?
    ensures AfterBracket(rest) == rest[|MetadataOf(rest).value| + 2..]
  {
    var j := BracketClose(rest, false).value;
    var j' := BracketClose(rest, true).value;
    assert j == j' by {
      assert BracketClosesAt(rest, j, true);
    }
  }

  /** The greedy `\s*`: `s` without its leading regex whitespace. */
  function SkipSpaces(s: string): (r: string)
    ensures |r| <= |s| && r == s[|s| - |r|..]
    ensures All(s[..|s| - |r|], IsRegexSpace)
    ensures |r| > 0 ==> !IsRegexSpace(r[0])
  {
    s[LeadingRun(s, IsRegexSpace)..]
  }

  /**
   Non-MULTILINE `$` at index `i`: the end of input, or just before a line
   terminator (`\r\n` counting as one) that ends the input.
   */
  predicate DollarAt(t: string, i: nat) {
    || i == |t|
    || (i + 1 == |t| && IsLineTerminator(t[i]) && !(t[i] == '\n' && i > 0 && t[i - 1] == '\r'))
    || (i + 2 == |t| && t[i] == '\r' && t[i + 1] == '\n')
  }

  /** `\s*$` matches `t` from index `k`. */
  predicate SpacesThenEnd(t: string, k: nat) {
    k <= |t| && exists j :: k <= j <= |t| && All(t[k..j], IsRegexSpace) && DollarAt(t, j)
  }

  /**
   What a lazy `(.*?)` followed by `\s*$` captures of `t`: `t` without its trailing
   whitespace, where a final NEL, LINE SEPARATOR or PARAGRAPH SEPARATOR may also
   stand after that whitespace.
   */
  function BeforeDollar(t: string): (g: string)
    ensures g <= t
    ensures |g| == 0 || !IsRegexSpace(g[|g| - 1])
  {
    var u := if |t| > 0 && IsWideTerminator(t[|t| - 1]) then t[..|t| - 1] else t;
    u[..TrailingStart(u, IsRegexSpace)]
  }

  /** A character that is neither whitespace nor a line terminator blocks `\s*$`. */
  lemma SolidBlocksDollar(t: string, k: nat)
    requires k < |t| && !IsRegexSpace(t[k]) && !IsLineTerminator(t[k])
    ensures !SpacesThenEnd(t, k)
  {
  }

  /** BeforeDollar is the shortest prefix after which `\s*$` matches: the lazy capture. */
  lemma BeforeDollarIsLazy(t: string)
    ensures SpacesThenEnd(t, |BeforeDollar(t)|)
    ensures forall k :: 0 <= k < |BeforeDollar(t)| ==> !SpacesThenEnd(t, k)
  {
    BeforeDollarMatches(t);
    forall k | 0 <= k < |BeforeDollar(t)| ensures !SpacesThenEnd(t, k) {
      NoDollarBeforeCaptureEnds(t, k);
    }
  }

  /** `\s*$` matches right after BeforeDollar's capture. */
  lemma BeforeDollarMatches(t: string)
    ensures SpacesThenEnd(t, |BeforeDollar(t)|)
  {
    var g := BeforeDollar(t);
    var n := |t|;
    var wide := n > 0 && IsWideTerminator(t[n - 1]);
    var u := if wide then t[..n - 1] else t;
    assert g == u[..|g|];
    assert All(t[|g|..|u|], IsRegexSpace) by {
      assert t[|g|..|u|] == u[TrailingStart(u, IsRegexSpace)..];
    }
    assert DollarAt(t, |u|);
  }

  /** Inside the capture `\s*$` cannot match: whitespace from `k` on stops at its solid last character. */
  lemma NoDollarBeforeCaptureEnds(t: string, k: nat)
    requires k < |BeforeDollar(t)|
    ensures !SpacesThenEnd(t, k)
  {
    var g := BeforeDollar(t);
    assert t[|g| - 1] == g[|g| - 1];
    forall j | k <= j <= |t| && All(t[k..j], IsRegexSpace) ensures !DollarAt(t, j) {
      forall m | k <= m < j ensures IsRegexSpace(t[m]) {
        assert t[k..j][m - k] == t[m];
      }
      DollarNotInsideCapture(t, j);
    }
  }

  /** `$` cannot stand inside BeforeDollar's capture. */
  lemma DollarNotInsideCapture(t: string, j: nat)
    requires j < |BeforeDollar(t)|
    ensures !DollarAt(t, j)
  {
    var g := BeforeDollar(t);
    var n := |t|;
    var u := if n > 0 && IsWideTerminator(t[n - 1]) then t[..n - 1] else t;
    assert |g| <= |u| && g == u[..|g|];
    assert t[|g| - 1] == g[|g| - 1];
  }

  /**
   What `\s*(.*?)\s*$` captures of `s`: the text between the greedy leading
   whitespace and the lazy end. MESSAGE_PATTERN and VERSION_PATTERN share this tail.
   */
  function Unpadded(s: string): (g: string)
    ensures |g| == 0 || (!IsRegexSpace(g[0]) && !IsRegexSpace(g[|g| - 1]))
    ensures g <= SkipSpaces(s)
  {
    var t := SkipSpaces(s);
    var g := BeforeDollar(t);
    assert |g| > 0 ==> g[0] == t[0];
    g
  }

  /** The regex tail captures exactly a core with solid ends between whitespace paddings. */
  lemma UnpaddedPadding(left: string, core: string, right: string)
    requires All(left, IsRegexSpace) && All(right, IsRegexSpace)
    requires |core| > 0 && !IsRegexSpace(core[0]) && !IsRegexSpace(core[|core| - 1])
    requires !IsWideTerminator(core[|core| - 1])
    ensures Unpadded(left + core + right) == core
  {
    var s := left + core + right;
    assert s[..|left|] == left;
    LeadingRunUnique(s, IsRegexSpace, |left|);
    var t := core + right;
    assert s[|left|..] == t;
    assert t[|t| - 1] == (if |right| > 0 then right[|right| - 1] else core[|core| - 1]);
    assert t[|core|..] == right;
    TrailingStartUnique(t, IsRegexSpace, |core|);
    assert t[..|core|] == core;
  }

  /**
   Group 1 of MESSAGE_PATTERN: the remainder without an optional leading bracket,
   with the surrounding whitespace removed.
   */
  function MessageOf(rest: string): (msg: string)
  {
    Unpadded(AfterBracket(rest))
  }

  /** A leading bracket that closes is skipped whole by the message extractor. */
  lemma AfterClosedBracket(inner: string, text: string)
    requires forall k :: 0 <= k < |inner| ==> inner[k] != ']'
    ensures AfterBracket("[" + inner + "]" + text) == text
  {
    var rest := "[" + inner + "]" + text;
    var j := |inner| + 1;
    assert BracketClosesAt(rest, j, true) by {
      assert rest[0] == '[' && rest[j] == ']';
      forall k | 1 <= k < j ensures rest[k] != ']' {
        assert rest[k] == inner[k - 1];
      }
    }
    assert rest[j + 1..] == text;
  }

  /**
   The message extractor drops a leading bracket, whether or not metadata was read
   from it (the bracket may span lines), and only the first one.
   */
  lemma MessageSkipsBracket(inner: string, text: string)
    requires forall k :: 0 <= k < |inner| ==> inner[k] != ']'
    ensures MessageOf("[" + inner + "]" + text) == Unpadded(text)
  {
    AfterClosedBracket(inner, text);
  }


  // ==== VERSION_PATTERN: the version test ====================================

  /** `\d+\.\d+`: digits, one dot, digits. */
  predicate IsDecimalPair(c: string) {
    exists k :: 0 < k < |c| - 1 && c[k] == '.' && All(c[..k], IsDigit) && All(c[k + 1..], IsDigit)
  }

  /** VERSION_PATTERN.asPredicate(): `^\s*\d+\.\d+\s*$` found in `piece`. */
  predicate IsVersion(piece: string) {
    IsDecimalPair(Unpadded(piece))
  }

  /** The regex matches `piece` with its `\d+\.\d+` occupying `piece[i..e]`. */
  predicate VersionMatch(piece: string, i: nat, e: nat) {
    && i <= e <= |piece|
    && All(piece[..i], IsRegexSpace)
    && IsDecimalPair(piece[i..e])
    && SpacesThenEnd(piece, e)
  }

  /** `\s*$` after a non-empty skipped prefix means the same on the suffix as on the whole text. */
  lemma SpacesThenEndShift(p: string, i: nat, k: nat)
    requires i <= |p| && 0 < k <= |p| - i
    ensures SpacesThenEnd(p[i..], k) <==> SpacesThenEnd(p, i + k)
  {
    var t := p[i..];
    if SpacesThenEnd(t, k) {
      var j :| k <= j <= |t| && All(t[k..j], IsRegexSpace) && DollarAt(t, j);
      assert p[i + k..i + j] == t[k..j];
      DollarShift(p, i, i + j);
    }
    if SpacesThenEnd(p, i + k) {
      var j :| i + k <= j <= |p| && All(p[i + k..j], IsRegexSpace) && DollarAt(p, j);
      assert p[i + k..j] == t[k..j - i];
      DollarShift(p, i, j);
    }
  }

  /** `$` away from the start of a suffix matches where it matches in the whole text. */
  lemma DollarShift(p: string, i: nat, j: nat)
    requires i < j <= |p|
    ensures DollarAt(p[i..], j - i) <==> DollarAt(p, j)
  {
    var t := p[i..];
    assert |t| == |p| - i;
    if j < |p| {
      assert t[j - i] == p[j] && t[j - i - 1] == p[j - 1];
    }
    if j + 1 < |p| {
      assert t[j - i + 1] == p[j + 1];
    }
  }

  /** A decimal pair holds no whitespace and no line terminator. */
  lemma DecimalPairIsSolid(c: string)
    requires IsDecimalPair(c)
    ensures forall k :: 0 <= k < |c| ==> !IsRegexSpace(c[k]) && !IsLineTerminator(c[k])
    ensures IsDigit(c[0]) && IsDigit(c[|c| - 1])
  {
    var d :| 0 < d < |c| - 1 && c[d] == '.' && All(c[..d], IsDigit) && All(c[d + 1..], IsDigit);
    forall k | 0 <= k < |c| ensures IsDigit(c[k]) || c[k] == '.' {
      if k < d { assert c[..d][k] == c[k]; } else if k > d { assert c[d + 1..][k - d - 1] == c[k]; }
    }
    assert c[..d][0] == c[0];
    assert c[d + 1..][|c| - d - 2] == c[|c| - 1];
  }

  /** The version test agrees with the regex: some split of `piece` matches `^\s*\d+\.\d+\s*$`. */
  lemma IsVersionMatchesPattern(piece: string)
    ensures IsVersion(piece) <==> exists i: nat, e: nat :: VersionMatch(piece, i, e)
  {
    if IsVersion(piece) {
      var t := SkipSpaces(piece);
      BeforeDollarMatches(t);
      MatchAfterSpaces(piece, LeadingRun(piece, IsRegexSpace), t, Unpadded(piece));
    }
    if exists i: nat, e: nat :: VersionMatch(piece, i, e) {
      var i: nat, e: nat :| VersionMatch(piece, i, e);
      MatchIsVersion(piece, i, e);
    }
  }

  /** A decimal pair opening the text after leading whitespace, followed by `\s*$`, is a match. */
  lemma MatchAfterSpaces(piece: string, i: nat, t: string, c: string)
    requires i <= |piece| && t == piece[i..] && c <= t
    requires All(piece[..i], IsRegexSpace) && IsDecimalPair(c) && SpacesThenEnd(t, |c|)
    ensures VersionMatch(piece, i, i + |c|)
  {
    SpacesThenEndShift(piece, i, |c|);
    assert piece[i..i + |c|] == c;
  }

  /** Any match of the regex captures exactly the version test's text. */
  lemma MatchIsVersion(piece: string, i0: nat, e: nat)
    requires VersionMatch(piece, i0, e)
    ensures IsVersion(piece)
  {
    var c := piece[i0..e];
    DecimalPairIsSolid(c);
    assert piece[i0] == c[0];
    LeadingRunUnique(piece, IsRegexSpace, i0);
    var t := SkipSpaces(piece);
    assert t == piece[i0..];
    assert t[..e - i0] == c;
    SpacesThenEndShift(piece, i0, e - i0);
    PairIsLazyCapture(t, e - i0);
  }

  /** A decimal pair followed by `\s*$` is exactly what the lazy capture takes. */
  lemma PairIsLazyCapture(t: string, n: nat)
    requires n <= |t| && IsDecimalPair(t[..n]) && SpacesThenEnd(t, n)
    ensures BeforeDollar(t) == t[..n]
  {
    var g := BeforeDollar(t);
    var c := t[..n];
    BeforeDollarIsLazy(t);
    DecimalPairIsSolid(c);
    assert |g| <= n;
    if |g| < n {
      assert t[|g|] == c[|g|];
      SolidBlocksDollar(t, |g|);
    }
  }


  /**
   Inside a metadata bracket (no line terminators) a version piece trims to its
   bare `digits.digits`.
   */
  lemma VersionPieceTrims(piece: string)
    requires forall k :: 0 <= k < |piece| ==> !IsLineTerminator(piece[k])
    requires IsVersion(piece)
    ensures Trim(piece) == Unpadded(piece)
    ensures IsDecimalPair(Trim(piece))
  {
    var t := SkipSpaces(piece);
    var i := |piece| - |t|;
    var n := TrailingStart(t, IsRegexSpace);
    OneLineUnpadded(piece);
    DecimalPairIsSolid(t[..n]);
    SpacePaddedTrim(piece, i, n);
  }

  /** On a single line the capture is the text between the leading and the trailing `\s` runs. */
  lemma OneLineUnpadded(piece: string)
    requires forall k :: 0 <= k < |piece| ==> !IsLineTerminator(piece[k])
    ensures var t := SkipSpaces(piece);
      Unpadded(piece) == t[..TrailingStart(t, IsRegexSpace)]
  {
    var t := SkipSpaces(piece);
    assert t == [] || t[|t| - 1] == piece[|piece| - 1];
  }

  /** trim() of a text whose core between `\s` runs has solid ends is that core. */
  lemma SpacePaddedTrim(s: string, i: nat, n: nat)
    requires i <= |s| && n <= |s| - i
    requires All(s[..i], IsRegexSpace) && All(s[i..][n..], IsRegexSpace)
    requires n > 0 ==> !IsTrimmable(s[i..][0]) && !IsTrimmable(s[i..][n - 1])
    ensures Trim(s) == s[i..][..n]
  {
    SpacesAreTrimmable(s[..i]);
    SpacesAreTrimmable(s[i..][n..]);
    SplitThree(s, i, n);
    TrimPadding(s[..i], s[i..][..n], s[i..][n..]);
  }

  lemma SplitThree(s: string, i: nat, n: nat)
    requires i <= |s| && n <= |s| - i
    ensures s == s[..i] + s[i..][..n] + s[i..][n..]
  {
    assert s[i..] == s[i..][..n] + s[i..][n..];
  }

  lemma SpacesAreTrimmable(s: string)
    requires All(s, IsRegexSpace)
    ensures All(s, IsTrimmable)
  {
  }

}

=== FILE: pr_issue.dfy ===
/**
 One merged pull request as the changelog sees it (PRIssue), and the parse of
 its body into a version filter, a label filter, a header line and a body text.
 */
module PRIssue {
  import opened Options
  import opened CharClasses
  import opened JavaStrings
  import opened Patterns

  /** Java's int. */
  newtype int32 = x: int | -0x8000_0000 <= x < 0x8000_0000

  /**
   The fields parsing reads. `labels` is None when the list is null; every string
   is non-null (a null body makes the matcher throw, which is not modelled).
   */
  datatype Issue = Issue(
    number: int32,
    title: string,
    body: string,
    htmlUrl: string,
    username: string,
    userlink: string,
    labels: Option<seq<string>>,
    includeAuthor: bool,
    includeLink: bool)

  /** Util.formatChangeText(msg, suffixes...): its body is not part of this model, so it is a parameter. */
  type Formatter = (string, seq<string>) -> string

  /** The four results of one parseMetaData run. */
  datatype Parsed = Parsed(versionFilter: seq<string>, labelFilter: seq<string>, header: string, bodyText: string)

  /** getGitHubTags(): the labels, or an empty list when they are null. */
  function GitHubTags(issue: Issue): seq<string> {
    issue.labels.GetOr([])
  }

  // ==== Header decoration =====================================================

  /** `[\#<number>](<html_url>)` */
  function LinkSuffix(issue: Issue): string {
    "[\\#" + FormatInt(issue.number as int) + "](" + issue.htmlUrl + ")"
  }

  /** `([<username>](<userlink>))` */
  function AuthorSuffix(issue: Issue): string {
    "([" + issue.username + "](" + issue.userlink + "))"
  }

  /** addLink: the trimmed text, a space, the link suffix. */
  function AddLink(issue: Issue, text: string): string {
    Trim(text) + " " + LinkSuffix(issue)
  }

  /** addAuthor: the trimmed text, a space, the author suffix. */
  function AddAuthor(issue: Issue, text: string): string {
    Trim(text) + " " + AuthorSuffix(issue)
  }

  /** The header before any directive is looked at: the title, then addLink, then addAuthor. */
  function DecoratedTitle(issue: Issue): string {
    var linked := if issue.includeLink then AddLink(issue, issue.title) else issue.title;
    if issue.includeAuthor then AddAuthor(issue, linked) else linked
  }

  /** The suffixes handed to formatChangeText with an override message: link first, then author. */
  function Suffixes(issue: Issue): seq<string> {
    (if issue.includeLink then [LinkSuffix(issue)] else []) + (if issue.includeAuthor then [AuthorSuffix(issue)] else [])
  }

  /** The four flag combinations of the override path, as parseMetaData spells them out. */
  lemma SuffixesCases(issue: Issue)
    ensures issue.includeLink && issue.includeAuthor ==> Suffixes(issue) == [LinkSuffix(issue), AuthorSuffix(issue)]
    ensures issue.includeLink && !issue.includeAuthor ==> Suffixes(issue) == [LinkSuffix(issue)]
    ensures !issue.includeLink && issue.includeAuthor ==> Suffixes(issue) == [AuthorSuffix(issue)]
    ensures !issue.includeLink && !issue.includeAuthor ==> Suffixes(issue) == []
  {
    var l := LinkSuffix(issue);
    var a := AuthorSuffix(issue);
    assert [l] + [a] == [l, a];
    assert [l] + [] == [l];
    assert [] + [a] == [a];
  }

  lemma SuffixEnds(issue: Issue)
    ensures |LinkSuffix(issue)| > 0 && !IsTrimmable(LinkSuffix(issue)[0]) && !IsTrimmable(LinkSuffix(issue)[|LinkSuffix(issue)| - 1])
  {
  }

  /**
   The decorated title in closed form. With both flags set, the two trims of the
   sequential path collapse: a blank title leaves no leading space before the
   suffixes. With one flag alone, a blank title still leaves that space.
   */
  lemma DecoratedTitleShape(issue: Issue)
    ensures !issue.includeLink && !issue.includeAuthor ==> DecoratedTitle(issue) == issue.title
    ensures issue.includeLink && !issue.includeAuthor ==>
      DecoratedTitle(issue) == Trim(issue.title) + " " + LinkSuffix(issue)
    ensures !issue.includeLink && issue.includeAuthor ==>
      DecoratedTitle(issue) == Trim(issue.title) + " " + AuthorSuffix(issue)
    ensures issue.includeLink && issue.includeAuthor ==>
      DecoratedTitle(issue) ==
        (if IsBlank(issue.title) then "" else Trim(issue.title) + " ") + LinkSuffix(issue) + " " + AuthorSuffix(issue)
  {
    if issue.includeLink && issue.includeAuthor {
      SuffixEnds(issue);
      if IsBlank(issue.title) {
        TrimBeforeSolid(Trim(issue.title), LinkSuffix(issue));
      } else {
        TrimSolidPair(Trim(issue.title), LinkSuffix(issue));
      }
    }
  }

  /** An empty text before a space and a solid suffix trims to the suffix. */
  lemma TrimBeforeSolid(t: string, suffix: string)
    requires |t| == 0
    requires |suffix| > 0 && !IsTrimmable(suffix[0]) && !IsTrimmable(suffix[|suffix| - 1])
    ensures Trim(t + " " + suffix) == suffix
  {
    assert t + " " + suffix == " " + suffix + "";
    TrimPadding(" ", suffix, "");
  }

  /** Two solid texts joined by a space are their own trim. */
  lemma TrimSolidPair(t: string, suffix: string)
    requires |t| > 0 && !IsTrimmable(t[0]) && !IsTrimmable(t[|t| - 1])
    requires |suffix| > 0 && !IsTrimmable(suffix[0]) && !IsTrimmable(suffix[|suffix| - 1])
    ensures Trim(t + " " + suffix) == t + " " + suffix
  {
    var core := t + " " + suffix;
    assert core[0] == t[0] && core[|core| - 1] == suffix[|suffix| - 1];
    assert "" + core + "" == core;
    TrimPadding("", core, "");
  }

  // ==== The directive's header ==============================================

  /**
   The header: the override message formatted with the suffixes when the
   directive carries a non-blank message, the decorated title otherwise.
   */
  function Header(issue: Issue, fmt: Formatter): string {
    match FindDirective(issue.body)
    case None => DecoratedTitle(issue)
    case Some(d) =>
      var msg := MessageOf(d.rest);
      if IsBlank(msg) then DecoratedTitle(issue) else fmt(msg, Suffixes(issue))
  }

  // ==== Metadata tokens =======================================================

  /** A piece that lands in the label filter. */
  predicate IsLabelPiece(piece: string) {
    !IsVersion(piece) && !IsBlank(piece)
  }

  /** The pieces satisfying `keep`, each passed through `f`, in their original order. */
  function Select(pieces: seq<string>, keep: string -> bool, f: string -> string): (r: seq<string>)
    ensures |r| <= |pieces|
  {
    if |pieces| == 0 then []
    else
      var last := pieces[|pieces| - 1];
      Select(pieces[..|pieces| - 1], keep, f) + (if keep(last) then [f(last)] else [])
  }

  /** The trimmed version pieces, in order. */
  function VersionTokens(pieces: seq<string>): seq<string> {
    Select(pieces, IsVersion, Trim)
  }

  /** The trimmed label pieces, in order. */
  function LabelTokens(pieces: seq<string>): seq<string> {
    Select(pieces, IsLabelPiece, Trim)
  }

  /** Selection distributes over concatenation of the piece list. */
  lemma {:induction false} SelectAppend(a: seq<string>, b: seq<string>, keep: string -> bool, f: string -> string)
    ensures Select(a + b, keep, f) == Select(a, keep, f) + Select(b, keep, f)
    decreases |b|
  {
    if |b| == 0 {
      assert a + b == a;
    } else {
      var b' := b[..|b| - 1];
      var x := b[|b| - 1];
      assert (a + b)[..|a + b| - 1] == a + b';
      assert (a + b)[|a + b| - 1] == x;
      SelectAppend(a, b', keep, f);
      var v := if keep(x) then [f(x)] else [];
      calc {
        Select(a + b, keep, f);
        Select(a + b', keep, f) + v;
        Select(a, keep, f) + Select(b', keep, f) + v;
        Select(a, keep, f) + (Select(b', keep, f) + v);
        Select(a, keep, f) + Select(b, keep, f);
      }
    }
  }

  /** Nothing is selected exactly when no piece is kept. */
  lemma {:induction false} SelectEmpty(pieces: seq<string>, keep: string -> bool, f: string -> string)
    ensures Select(pieces, keep, f) == [] <==> forall k :: 0 <= k < |pieces| ==> !keep(pieces[k])
  {
    if |pieces| > 0 {
      var init := pieces[..|pieces| - 1];
      SelectEmpty(init, keep, f);
      assert forall k :: 0 <= k < |init| ==> init[k] == pieces[k];
    }
  }

  /** Both token lists distribute over concatenation of the piece list. */
  lemma TokensAppend(a: seq<string>, b: seq<string>)
    ensures VersionTokens(a + b) == VersionTokens(a) + VersionTokens(b)
    ensures LabelTokens(a + b) == LabelTokens(a) + LabelTokens(b)
  {
    SelectAppend(a, b, IsVersion, Trim);
    SelectAppend(a, b, IsLabelPiece, Trim);
  }

  /** A version piece is never blank: its digits survive trimming. */
  lemma VersionIsNotBlank(piece: string)
    requires IsVersion(piece)
    ensures !IsBlank(piece)
  {
    var g := Unpadded(piece);
    DecimalPairIsSolid(g);
    var t := SkipSpaces(piece);
    assert g[0] == t[0] == piece[|piece| - |t|];
  }

  /**
   Each piece lands in exactly one place: a version piece in the version filter,
   any other non-blank piece in the label filter, a blank piece nowhere.
   */
  lemma ClassifyOnePiece(piece: string)
    ensures IsVersion(piece) ==> VersionTokens([piece]) == [Trim(piece)] && LabelTokens([piece]) == []
    ensures !IsVersion(piece) && !IsBlank(piece) ==> VersionTokens([piece]) == [] && LabelTokens([piece]) == [Trim(piece)]
    ensures IsBlank(piece) ==> VersionTokens([piece]) == [] && LabelTokens([piece]) == []
  {
    assert [piece][..0] == [];
    if IsVersion(piece) {
      VersionIsNotBlank(piece);
    }
  }

  /** No label pieces at all exactly when the label tokens come out empty. */
  lemma LabelTokensEmpty(pieces: seq<string>)
    ensures LabelTokens(pieces) == [] <==> forall k :: 0 <= k < |pieces| ==> !IsLabelPiece(pieces[k])
  {
    SelectEmpty(pieces, IsLabelPiece, Trim);
  }

  /** Empty pieces contribute no token. */
  lemma EmptyPiecesNoTokens(pieces: seq<string>)
    requires forall k :: 0 <= k < |pieces| ==> pieces[k] == ""
    ensures VersionTokens(pieces) == [] && LabelTokens(pieces) == []
  {
    forall k | 0 <= k < |pieces| ensures !IsVersion(pieces[k]) && !IsLabelPiece(pieces[k]) {
      assert IsBlank(pieces[k]);
      if IsVersion(pieces[k]) { VersionIsNotBlank(pieces[k]); }
    }
    SelectEmpty(pieces, IsVersion, Trim);
    SelectEmpty(pieces, IsLabelPiece, Trim);
  }

  /** Dropping the trailing empty pieces, as String.split does, changes no token. */
  lemma JavaSplitKeepsTokens(meta: string)
    ensures VersionTokens(JavaSplit(meta, ',')) == VersionTokens(Split(meta, ','))
    ensures LabelTokens(JavaSplit(meta, ',')) == LabelTokens(Split(meta, ','))
  {
    if ',' in meta {
      var all := Split(meta, ',');
      var kept := JavaSplit(meta, ',');
      var dropped := all[|kept|..];
      assert all == kept + dropped;
      forall k | 0 <= k < |dropped| ensures dropped[k] == "" {
        assert dropped[k] == all[|kept| + k];
      }
      EmptyPiecesNoTokens(dropped);
      TokensAppend(kept, dropped);
    }
  }

  /** A piece of a split text holds only characters of that text. */
  lemma {:induction false} SplitPiecesInherit(s: string, sep: char, p: char -> bool)
    requires All(s, p)
    ensures forall i :: 0 <= i < |Split(s, sep)| ==> All(Split(s, sep)[i], p)
    decreases |s|
  {
    if sep in s {
      var k := IndexOf(s, sep);
      assert All(s[k + 1..], p);
      SplitPiecesInherit(s[k + 1..], sep, p);
      assert All(s[..k], p);
    }
  }

  predicate NotTerminator(c: char) {
    !IsLineTerminator(c)
  }

  // ==== The parse =============================================================

  /** The comma-separated pieces of a remainder's metadata bracket; none without a bracket. */
  function MetaPieces(rest: string): seq<string> {
    match MetadataOf(rest)
    case None => []
    case Some(meta) => JavaSplit(meta, ',')
  }

  /** The metadata pieces of the body's directive; none without a directive. */
  function DirectivePieces(body: string): seq<string> {
    match FindDirective(body)
    case None => []
    case Some(d) => MetaPieces(d.rest)
  }

  /** parseMetaData as one value: the four results of a single pass over the body. */
  function Parse(issue: Issue, fmt: Formatter): Parsed {
    var pieces := DirectivePieces(issue.body);
    var labels := LabelTokens(pieces);
    Parsed(
      VersionTokens(pieces),
      if labels == [] then GitHubTags(issue) else labels,
      Header(issue, fmt),
      StripDirectives(issue.body))
  }

  /** Classifying one more piece appends that piece's tokens. */
  lemma ClassifyStep(parts: seq<string>, i: nat)
    requires i < |parts|
    ensures VersionTokens(parts[..i + 1]) == VersionTokens(parts[..i]) + VersionTokens([parts[i]])
    ensures LabelTokens(parts[..i + 1]) == LabelTokens(parts[..i]) + LabelTokens([parts[i]])
  {
    assert parts[..i + 1] == parts[..i] + [parts[i]];
    TokensAppend(parts[..i], [parts[i]]);
  }

  /** The loop over the metadata pieces: versions and non-blank others, trimmed, in order. */
  method ClassifyParts(parts: seq<string>) returns (versionFilter: seq<string>, labelFilter: seq<string>)
    ensures versionFilter == VersionTokens(parts)
    ensures labelFilter == LabelTokens(parts)
  {
    versionFilter, labelFilter := [], [];
    var i := 0;
    while i < |parts|
      invariant i <= |parts|
      invariant versionFilter == VersionTokens(parts[..i])
      invariant labelFilter == LabelTokens(parts[..i])
    {
      var part := parts[i];
      ClassifyStep(parts, i);
      ClassifyOnePiece(part);
      if IsVersion(part) {
        versionFilter := versionFilter + [Trim(part)];
      } else if !IsBlank(part) {
        labelFilter := labelFilter + [Trim(part)];
      }
      i := i + 1;
    }
    assert parts[..|parts|] == parts;
  }

  /**
   parseMetaData step by step: defaults first, then the message, the metadata
   loop and the stripped body when a directive is found, then the label fallback.
   */
  method ParseMetaData(issue: Issue, fmt: Formatter) returns (r: Parsed)
    ensures r == Parse(issue, fmt)
  {
    var versionFilter: seq<string> := [];
    var labelFilter: seq<string> := [];
    var header := issue.title;
    if issue.includeLink {
      header := AddLink(issue, header);
    }
    if issue.includeAuthor {
      header := AddAuthor(issue, header);
    }
    assert header == DecoratedTitle(issue);
    var bodyText := issue.body;
    var found := FindDirective(issue.body);
    if found.Some? {
      var rest := found.value.rest;
      var msg := MessageOf(rest);
      if !IsBlank(msg) {
        if issue.includeAuthor && issue.includeLink {
          header := fmt(msg, [LinkSuffix(issue), AuthorSuffix(issue)]);
        } else if issue.includeLink {
          header := fmt(msg, [LinkSuffix(issue)]);
        } else if issue.includeAuthor {
          header := fmt(msg, [AuthorSuffix(issue)]);
        } else {
          header := fmt(msg, []);
        }
        SuffixesCases(issue);
      }
      var meta := MetadataOf(rest);
      if meta.Some? {
        versionFilter, labelFilter := ClassifyParts(JavaSplit(meta.value, ','));
      }
      assert versionFilter == VersionTokens(DirectivePieces(issue.body));
      assert labelFilter == LabelTokens(DirectivePieces(issue.body));
      bodyText := StripDirectives(issue.body);
    }
    assert header == Header(issue, fmt);
    if labelFilter == [] {
      labelFilter := GitHubTags(issue);
    }
    r := Parsed(versionFilter, labelFilter, header, bodyText);
  }


  // ==== Properties of the parse ===============================================

  /** Without a directive nothing is parsed: empty versions, the GitHub labels, the decorated title, the body. */
  lemma NoDirectiveParse(issue: Issue, fmt: Formatter)
    requires forall i :: 0 <= i < |issue.body| ==> !DirectiveAt(issue.body, i)
    ensures Parse(issue, fmt) == Parsed([], GitHubTags(issue), DecoratedTitle(issue), issue.body)
  {
  }

  /**
   The body text is the body cut at the first marker: a prefix of the body, the
   whole body exactly when there is no directive, and free of directives itself.
   */
  lemma BodyTextIsPrefixBeforeMarker(issue: Issue, fmt: Formatter)
    ensures Parse(issue, fmt).bodyText <= issue.body
    ensures Parse(issue, fmt).bodyText == issue.body <==> FindDirective(issue.body).None?
    ensures FindDirective(issue.body).Some? ==>
      Parse(issue, fmt).bodyText == issue.body[..FindDirective(issue.body).value.start]
    ensures FindDirective(Parse(issue, fmt).bodyText).None?
  {
    StrippedBodyHasNoDirective(issue.body);
  }

  /**
   The label filter falls back to the GitHub labels, in their order, exactly when
   the directive yields no label piece (no directive, no bracket, or only version
   and blank pieces); otherwise it is the label tokens.
   */
  lemma LabelFallback(issue: Issue, fmt: Formatter)
    ensures var pieces := DirectivePieces(issue.body);
      (forall k :: 0 <= k < |pieces| ==> !IsLabelPiece(pieces[k])) ==>
        Parse(issue, fmt).labelFilter == GitHubTags(issue)
    ensures var pieces := DirectivePieces(issue.body);
      (exists k :: 0 <= k < |pieces| && IsLabelPiece(pieces[k])) ==>
        Parse(issue, fmt).labelFilter == LabelTokens(pieces) != []
    ensures FindDirective(issue.body).None? ==> Parse(issue, fmt).labelFilter == GitHubTags(issue)
    ensures issue.labels.None? ==> GitHubTags(issue) == []
  {
    LabelTokensEmpty(DirectivePieces(issue.body));
  }

  /**
   The version filter holds only bare `digits.digits` tokens, and is empty without
   a directive or without a metadata bracket: it never falls back.
   */
  lemma VersionFilterShape(issue: Issue, fmt: Formatter)
    ensures forall t :: t in Parse(issue, fmt).versionFilter ==> IsDecimalPair(t)
    ensures FindDirective(issue.body).None? ==> Parse(issue, fmt).versionFilter == []
    ensures FindDirective(issue.body).Some? && MetadataOf(FindDirective(issue.body).value.rest).None? ==>
      Parse(issue, fmt).versionFilter == []
  {
    match FindDirective(issue.body)
    case None =>
    case Some(d) =>
      match MetadataOf(d.rest)
      case None =>
      case Some(meta) =>
        assert All(meta, NotTerminator);
        MetaVersionsAreDecimal(meta);
  }

  /** Version tokens read from a single-line bracket are bare decimal pairs. */
  lemma MetaVersionsAreDecimal(meta: string)
    requires All(meta, NotTerminator)
    ensures forall t :: t in VersionTokens(JavaSplit(meta, ',')) ==> IsDecimalPair(t)
  {
    var pieces := JavaSplit(meta, ',');
    SplitPiecesInherit(meta, ',', NotTerminator);
    assert forall i :: 0 <= i < |pieces| ==> All(pieces[i], NotTerminator) by {
      if ',' in meta {
        assert forall i :: 0 <= i < |pieces| ==> pieces[i] == Split(meta, ',')[i];
      }
    }
    VersionTokensAreDecimal(pieces);
  }

  /** Version pieces without line terminators trim to bare decimal pairs. */
  lemma {:induction false} VersionTokensAreDecimal(pieces: seq<string>)
    requires forall i :: 0 <= i < |pieces| ==> All(pieces[i], NotTerminator)
    ensures forall t :: t in VersionTokens(pieces) ==> IsDecimalPair(t)
  {
    if |pieces| > 0 {
      var init := pieces[..|pieces| - 1];
      var last := pieces[|pieces| - 1];
      VersionTokensAreDecimal(init);
      if IsVersion(last) {
        VersionPieceTrims(last);
      }
    }
  }



  /**
   A body that opens with a marker and a bracket closing on its line: the
   tokens come from that bracket, the text after it is the candidate message,
   and the body text is empty.
   */
  lemma LeadingDirectiveParse(issue: Issue, fmt: Formatter, word: string, sep: string, meta: string, text: string)
    requires IsMarkerWord(word) && All(sep, IsSpaceOrColon)
    requires forall k :: 0 <= k < |meta| ==> meta[k] != ']' && !IsLineTerminator(meta[k])
    requires issue.body == word + sep + ("[" + meta + "]" + text)
    ensures Parse(issue, fmt).versionFilter == VersionTokens(JavaSplit(meta, ','))
    ensures var labels := LabelTokens(JavaSplit(meta, ','));
      Parse(issue, fmt).labelFilter == if labels == [] then GitHubTags(issue) else labels
    ensures Parse(issue, fmt).header ==
      if IsBlank(Unpadded(text)) then DecoratedTitle(issue) else fmt(Unpadded(text), Suffixes(issue))
    ensures Parse(issue, fmt).bodyText == ""
  {
    var rest := "[" + meta + "]" + text;
    assert issue.body[|word|] == (sep + rest)[0];
    DirectiveAtBodyStart(word, sep, rest);
    MetadataOfClosed(meta, text);
    MessageSkipsBracket(meta, text);
  }

  /**
   A bracket that closes only on a later line yields no metadata, so no tokens
   and the GitHub labels; the message extractor still skips the whole bracket.
   */
  lemma LeadingMultiLineBracketParse(issue: Issue, fmt: Formatter, word: string, sep: string, inner: string, text: string, n: nat)
    requires IsMarkerWord(word) && All(sep, IsSpaceOrColon)
    requires forall k :: 0 <= k < |inner| ==> inner[k] != ']'
    requires n < |inner| && IsLineTerminator(inner[n])
    requires issue.body == word + sep + ("[" + inner + "]" + text)
    ensures Parse(issue, fmt).versionFilter == []
    ensures Parse(issue, fmt).labelFilter == GitHubTags(issue)
    ensures Parse(issue, fmt).header ==
      if IsBlank(Unpadded(text)) then DecoratedTitle(issue) else fmt(Unpadded(text), Suffixes(issue))
    ensures Parse(issue, fmt).bodyText == ""
  {
    var rest := "[" + inner + "]" + text;
    assert issue.body[|word|] == (sep + rest)[0];
    DirectiveAtBodyStart(word, sep, rest);
    MetadataOfOpenLine(inner, text, n);
    MessageSkipsBracket(inner, text);
  }

  /**
   A body that opens with a marker and no bracket: no tokens, the GitHub labels,
   the rest of the body as the candidate message, and an empty body text.
   */
  lemma LeadingMessageParse(issue: Issue, fmt: Formatter, word: string, sep: string, text: string)
    requires IsMarkerWord(word) && All(sep, IsSpaceOrColon)
    requires |text| == 0 || (text[0] != '[' && !IsSpaceOrColon(text[0]))
    requires |sep| == 0 && |text| > 0 ==> !IsWordChar(text[0])
    requires issue.body == word + sep + text
    ensures Parse(issue, fmt) == Parsed([], GitHubTags(issue),
      if IsBlank(Unpadded(text)) then DecoratedTitle(issue) else fmt(Unpadded(text), Suffixes(issue)), "")
  {
    if |sep| > 0 {
      assert issue.body[|word|] == sep[0];
    } else if |text| > 0 {
      assert issue.body[|word|] == text[0];
    }
    DirectiveAtBodyStart(word, sep, text);
    assert AfterBracket(text) == text;
  }

  /**
   A directive whose message is blank leaves the header exactly as a body without
   any directive would, whatever formatChangeText does.
   */
  lemma BlankMessageKeepsTitle(issue: Issue, fmt: Formatter, fmt': Formatter)
    requires FindDirective(issue.body).Some?
    requires IsBlank(MessageOf(FindDirective(issue.body).value.rest))
    ensures Parse(issue, fmt).header == Parse(issue.(body := ""), fmt').header
  {
    NoDirectiveParse(issue.(body := ""), fmt');
  }

  /**
   A non-blank directive message replaces the title: issues that differ only in
   their titles get the same header, and with both flags off the header does not
   depend on the link or author fields either.
   */
  lemma OverrideIgnoresTitle(issue: Issue, fmt: Formatter, title: string, htmlUrl: string, username: string)
    requires FindDirective(issue.body).Some?
    requires !IsBlank(MessageOf(FindDirective(issue.body).value.rest))
    ensures Parse(issue.(title := title), fmt).header == Parse(issue, fmt).header
    ensures !issue.includeLink && !issue.includeAuthor ==>
      Parse(issue.(htmlUrl := htmlUrl, username := username), fmt).header == Parse(issue, fmt).header
  {
    SuffixesCases(issue);
  }

  // ==== The secondary constructor =============================================

  /** The parts of the fetched GitHub issue and pull request that a PRIssue is built from. */
  datatype GitHubUser = GitHubUser(login: string, htmlUrl: string)
  datatype GitHubLabel = GitHubLabel(name: string)
  datatype GitHubIssue = GitHubIssue(user: GitHubUser, labels: seq<GitHubLabel>)
  datatype GitHubPR = GitHubPR(number: int32, title: string, body: string, htmlUrl: string)

  /** categoryMap.getOrDefault(name, name) */
  function Category(categoryMap: map<string, string>, name: string): string {
    if name in categoryMap then categoryMap[name] else name
  }

  /** Every label name replaced by its category, when it has one; same length, same order. */
  function RemapLabels(labels: seq<GitHubLabel>, categoryMap: map<string, string>): (r: seq<string>)
    ensures |r| == |labels|
    ensures forall k :: 0 <= k < |labels| ==>
      (labels[k].name in categoryMap ==> r[k] == categoryMap[labels[k].name]) &&
      (labels[k].name !in categoryMap ==> r[k] == labels[k].name)
  {
    if |labels| == 0 then []
    else RemapLabels(labels[..|labels| - 1], categoryMap) + [Category(categoryMap, labels[|labels| - 1].name)]
  }

  /** The secondary constructor: fields copied from the pull request and issue, labels remapped. */
  function FromGitHub(issue: GitHubIssue, pr: GitHubPR, categoryMap: map<string, string>,
                      includeAuthor: bool, includeLink: bool): (r: Issue)
    ensures r.labels.Some? && |GitHubTags(r)| == |issue.labels|
    ensures forall k :: 0 <= k < |issue.labels| ==> GitHubTags(r)[k] == Category(categoryMap, issue.labels[k].name)
    ensures r.body == pr.body && r.title == pr.title && r.number == pr.number
    ensures r.username == issue.user.login && r.userlink == issue.user.htmlUrl && r.htmlUrl == pr.htmlUrl
    ensures r.includeAuthor == includeAuthor && r.includeLink == includeLink
  {
    Issue(pr.number, pr.title, pr.body, pr.htmlUrl, issue.user.login, issue.user.htmlUrl,
          Some(RemapLabels(issue.labels, categoryMap)), includeAuthor, includeLink)
  }

  /** With an empty category map, the tags are the issue's label names, unchanged and in order. */
  lemma {:induction false} FromGitHubWithoutCategories(issue: GitHubIssue, pr: GitHubPR, includeAuthor: bool, includeLink: bool)
    ensures GitHubTags(FromGitHub(issue, pr, map[], includeAuthor, includeLink)) == seq(|issue.labels|, k requires 0 <= k < |issue.labels| => issue.labels[k].name)
  {
    var tags := GitHubTags(FromGitHub(issue, pr, map[], includeAuthor, includeLink));
    assert forall k :: 0 <= k < |issue.labels| ==> tags[k] == Category(map[], issue.labels[k].name) == issue.labels[k].name;
  }
}

=== FILE: scenarios.dfy ===
/**
 The worked bodies of the changelog directive, evaluated through the general
 lemmas: a full directive, a directive without a bracket, a bare marker, and a
 metadata piece where `\s` and trim() disagree.
 */
module Scenarios {
  import opened Options
  import opened CharClasses
  import opened JavaStrings
  import opened Patterns
  import opened PRIssue

  // ==== Text facts ============================================================

  /** Text with solid ends. */
  predicate Solid(s: string) {
    |s| > 0 && !IsTrimmable(s[0]) && !IsTrimmable(s[|s| - 1]) && !IsWideTerminator(s[|s| - 1])
  }

  /** Solid text is its own trim and its own regex capture. */
  lemma SolidText(s: string)
    requires Solid(s)
    ensures Unpadded(s) == s && Trim(s) == s && !IsBlank(s)
  {
    var none: string := [];
    assert none + s + none == s;
    assert All(none, IsRegexSpace) && All(none, IsTrimmable);
    UnpaddedPadding(none, s, none);
    TrimPadding(none, s, none);
  }

  /** One space before solid text is dropped by both the regex capture and trim(). */
  lemma SpaceThenSolid(s: string)
    requires Solid(s)
    ensures Unpadded(" " + s) == s && Trim(" " + s) == s
  {
    assert " " + s == " " + s + "";
    UnpaddedPadding(" ", s, "");
    TrimPadding(" ", s, "");
  }

  /** A decimal pair holds a dot. */
  lemma DecimalPairHasDot(c: string)
    requires IsDecimalPair(c)
    ensures '.' in c
  {
    var k :| 0 < k < |c| - 1 && c[k] == '.' && All(c[..k], IsDigit) && All(c[k + 1..], IsDigit);
    assert c[k] in c;
  }

  // ==== `cl: [3.5, Bug] Fixed race in scheduler` ===============================

  /** Text that may sit inside a one-line metadata bracket between commas. */
  predicate PlainPiece(s: string) {
    forall k :: 0 <= k < |s| ==> s[k] != ',' && s[k] != ']' && !IsLineTerminator(s[k])
  }

  /** Two plain pieces joined by a comma and a space: no comma inside either, no `]` or terminator anywhere. */
  lemma PlainPair(version: string, name: string)
    requires PlainPiece(version) && PlainPiece(name)
    ensures ',' !in version && ',' !in " " + name
    ensures var meta := version + [','] + (" " + name);
      forall k :: 0 <= k < |meta| ==> meta[k] != ']' && !IsLineTerminator(meta[k])
  {
    var tag := " " + name;
    var meta := version + [','] + tag;
    assert ',' !in version by {
      forall k | 0 <= k < |version| ensures version[k] != ',' { }
    }
    assert ',' !in tag by {
      forall k | 0 <= k < |tag| ensures tag[k] != ',' {
        if k > 0 { assert tag[k] == name[k - 1]; }
      }
    }
    forall k | 0 <= k < |meta| ensures meta[k] != ']' && !IsLineTerminator(meta[k]) {
      if k < |version| {
        assert meta[k] == version[k];
      } else if k > |version| + 1 {
        assert meta[k] == name[k - |version| - 2];
      }
    }
  }

  /** `3.5` is a version and is its own trim. */
  lemma VersionPiece(version: string)
    requires version == "3.5"
    ensures IsVersion(version) && Trim(version) == version
  {
    assert Solid(version);
    SolidText(version);
    var k := 1;
    assert version[..k] == "3" && version[k + 1..] == "5";
    assert 0 < k < |version| - 1 && version[k] == '.' && All(version[..k], IsDigit) && All(version[k + 1..], IsDigit);
  }

  /** A space and a dotless word is no version, is not blank, and trims to the word. */
  lemma LabelPiece(word: string)
    requires Solid(word) && '.' !in word
    ensures !IsVersion(" " + word) && !IsBlank(" " + word) && Trim(" " + word) == word
  {
    SpaceThenSolid(word);
    if IsDecimalPair(word) {
      DecimalPairHasDot(word);
    }
  }

  /** A version piece followed by a label piece gives one token of each kind. */
  lemma VersionThenLabel(version: string, tag: string)
    requires IsVersion(version) && !IsVersion(tag) && !IsBlank(tag)
    ensures VersionTokens([version, tag]) == [Trim(version)]
    ensures LabelTokens([version, tag]) == [Trim(tag)]
  {
    ClassifyOnePiece(version);
    ClassifyOnePiece(tag);
    assert [version, tag] == [version] + [tag];
    TokensAppend([version], [tag]);
  }

  /** A comma-free version, a comma and a spaced dotless word: one token of each kind. */
  lemma VersionCommaLabel(version: string, word: string)
    requires IsVersion(version) && Trim(version) == version
    requires Solid(word) && '.' !in word
    requires ',' !in version && ',' !in " " + word
    ensures JavaSplit(version + [','] + (" " + word), ',') == [version, " " + word]
    ensures VersionTokens(JavaSplit(version + [','] + (" " + word), ',')) == [version]
    ensures LabelTokens(JavaSplit(version + [','] + (" " + word), ',')) == [word]
  {
    var tag := " " + word;
    SplitTwoPieces(version, tag, ',');
    LabelPiece(word);
    VersionThenLabel(version, tag);
  }

  /**
   A directive opening the body with the bracket `[<version>, <name>]` and, after
   one space, a solid message: the version and the name are the filters, the
   message overrides the header, and no body text is left.
   */
  lemma VersionLabelDirective(issue: Issue, fmt: Formatter, word: string, sep: string,
                              version: string, name: string, msg: string)
    requires IsMarkerWord(word) && All(sep, IsSpaceOrColon)
    requires IsVersion(version) && Trim(version) == version && PlainPiece(version)
    requires Solid(name) && '.' !in name && PlainPiece(name)
    requires Solid(msg)
    requires issue.body == word + sep + ("[" + (version + [','] + (" " + name)) + "]" + (" " + msg))
    ensures Parse(issue, fmt) == Parsed([version], [name], fmt(msg, Suffixes(issue)), "")
  {
    var meta := version + [','] + (" " + name);
    PlainPair(version, name);
    VersionCommaLabel(version, name);
    OpeningDirective(issue, fmt, word, sep, meta, msg);
  }

  /**
   The facts about the first example: its body cut at the marker, separator,
   bracket and message, and the pieces and message fit for VersionLabelDirective.
   */
  lemma FirstExampleFacts(body: string, version: string, name: string, msg: string)
    requires version == "3.5" && name == "Bug" && msg == "Fixed race in scheduler"
    requires body == "cl: [" + version + ", " + name + "] " + msg
    ensures body == "cl" + ": " + ("[" + (version + [','] + (" " + name)) + "]" + (" " + msg))
    ensures PlainPiece(version) && PlainPiece(name)
    ensures Solid(name) && '.' !in name && Solid(msg)
  {
    assert "cl: [" == "cl" + ": " + "[" && ", " == [','] + " " && "] " == "]" + " ";
  }

  /** `cl` followed by `: ` opens a directive. */
  lemma ClMarker()
    ensures IsMarkerWord("cl") && All(": ", IsSpaceOrColon)
  {
    assert MatchesIgnoreCase("cl", 0, "cl");
  }

  /**
   `cl: [3.5, Bug] Fixed race in scheduler`: the version `3.5`, the label `Bug`,
   the message as the header, and no body text.
   */
  lemma VersionLabelAndMessage(issue: Issue, fmt: Formatter, version: string, name: string, msg: string)
    requires version == "3.5" && name == "Bug" && msg == "Fixed race in scheduler"
    requires issue.body == "cl: [" + version + ", " + name + "] " + msg
    ensures Parse(issue, fmt) == Parsed([version], [name], fmt(msg, Suffixes(issue)), "")
  {
    FirstExampleFacts(issue.body, version, name, msg);
    ClMarker();
    VersionPiece(version);
    VersionLabelDirective(issue, fmt, "cl", ": ", version, name, msg);
  }

  /** A directive opening the body with a one-line bracket and, after one space, a solid message. */
  lemma OpeningDirective(issue: Issue, fmt: Formatter, word: string, sep: string, meta: string, msg: string)
    requires IsMarkerWord(word) && All(sep, IsSpaceOrColon)
    requires forall k :: 0 <= k < |meta| ==> meta[k] != ']' && !IsLineTerminator(meta[k])
    requires Solid(msg)
    requires issue.body == word + sep + ("[" + meta + "]" + (" " + msg))
    ensures Parse(issue, fmt).versionFilter == VersionTokens(JavaSplit(meta, ','))
    ensures var labels := LabelTokens(JavaSplit(meta, ','));
      Parse(issue, fmt).labelFilter == if labels == [] then GitHubTags(issue) else labels
    ensures Parse(issue, fmt).header == fmt(msg, Suffixes(issue))
    ensures Parse(issue, fmt).bodyText == ""
  {
    LeadingDirectiveParse(issue, fmt, word, sep, meta, " " + msg);
    SpaceThenSolid(msg);
    SolidText(msg);
  }

  // ==== `changelog Improved startup time` =====================================

  /** `changelog` followed by a space opens a directive. */
  lemma ChangelogMarker()
    ensures IsMarkerWord("changelog") && All(" ", IsSpaceOrColon)
  {
    assert MatchesIgnoreCase("changelog", 0, "changelog");
  }

  /** The facts about the second example: its body cut after the marker and separator, and its message. */
  lemma SecondExampleFacts(body: string, msg: string)
    requires msg == "Improved startup time"
    requires body == "changelog " + msg
    ensures body == "changelog" + " " + msg
    ensures Solid(msg) && msg[0] != '[' && !IsSpaceOrColon(msg[0])
  {
  }

  /** `changelog Improved startup time`: no bracket, so no tokens; the labels fall back to GitHub's. */
  lemma MessageWithoutBracket(issue: Issue, fmt: Formatter, msg: string)
    requires msg == "Improved startup time"
    requires issue.body == "changelog " + msg
    ensures Parse(issue, fmt) == Parsed([], GitHubTags(issue), fmt(msg, Suffixes(issue)), "")
  {
    SecondExampleFacts(issue.body, msg);
    ChangelogMarker();
    OpeningMessage(issue, fmt, "changelog", " ", msg);
  }

  /** A directive opening the body with a solid message and no bracket. */
  lemma OpeningMessage(issue: Issue, fmt: Formatter, word: string, sep: string, msg: string)
    requires IsMarkerWord(word) && All(sep, IsSpaceOrColon) && |sep| > 0
    requires Solid(msg) && msg[0] != '[' && !IsSpaceOrColon(msg[0])
    requires issue.body == word + sep + msg
    ensures Parse(issue, fmt) == Parsed([], GitHubTags(issue), fmt(msg, Suffixes(issue)), "")
  {
    LeadingMessageParse(issue, fmt, word, sep, msg);
    SolidText(msg);
  }

  // ==== `cl` ==================================================================

  /** A bare `cl`: a directive without metadata or message, so the title stays and the body text is empty. */
  lemma BareMarker(issue: Issue, fmt: Formatter)
    requires issue.body == "cl"
    ensures Parse(issue, fmt) == Parsed([], GitHubTags(issue), DecoratedTitle(issue), "")
  {
    ClMarker();
    assert issue.body == "cl" + "" + "";
    LeadingMessageParse(issue, fmt, "cl", "", "");
  }

  // ==== A control character before a version ===================================

  /** A piece opening with a control character is its own regex capture and no decimal pair. */
  lemma ControlCharIsNoVersion(piece: string)
    requires piece == "\U{1}3.5"
    ensures !IsVersion(piece)
  {
    assert piece == "" + piece + "";
    UnpaddedPadding("", piece, "");
    assert !IsDecimalPair(piece) by {
      forall k | 0 < k < |piece| ensures !All(piece[..k], IsDigit) {
        assert piece[..k][0] == piece[0];
      }
    }
  }

  /** trim() removes the control character. */
  lemma ControlCharTrims(piece: string, core: string)
    requires piece == "\U{1}3.5" && core == "3.5"
    ensures Trim(piece) == core && !IsBlank(piece)
  {
    assert piece == "\U{1}" + core + "";
    TrimPadding("\U{1}", core, "");
  }

  /**
   A control character before `3.5` is not `\s`, so the piece fails the version
   test, yet trim() removes it: the piece lands in the label filter as `3.5`.
   */
  lemma ControlCharVersionIsALabel(piece: string)
    requires piece == "\U{1}3.5"
    ensures LabelTokens([piece]) == ["3.5"] && VersionTokens([piece]) == []
  {
    ControlCharIsNoVersion(piece);
    ControlCharTrims(piece, "3.5");
    ClassifyOnePiece(piece);
  }
}

=== FILE: strings.dfy ===
/**
 The java.lang.String operations PRIssue relies on: trim(), split(",") with
 limit 0, and the `%d` conversion of String.format.
 */
module JavaStrings {
  import opened CharClasses

  /** Every character of `s` satisfies `p`. */
  predicate All(s: string, p: char -> bool) {
    forall k :: 0 <= k < |s| ==> p(s[k])
  }

  /** Length of the longest prefix of `s` made of characters satisfying `p` (a greedy `p*`). */
  function LeadingRun(s: string, p: char -> bool): (n: nat)
    ensures n <= |s|
    ensures All(s[..n], p)
    ensures n < |s| ==> !p(s[n])
    decreases |s|
  {
    if |s| == 0 || !p(s[0]) then 0
    else
      var m := LeadingRun(s[1..], p);
      assert s[..m + 1] == [s[0]] + s[1..][..m];
      m + 1
  }

  /** Start of the longest suffix of `s` made of characters satisfying `p`. */
  function TrailingStart(s: string, p: char -> bool): (n: nat)
    ensures n <= |s|
    ensures All(s[n..], p)
    ensures n > 0 ==> !p(s[n - 1])
    decreases |s|
  {
    if |s| == 0 || !p(s[|s| - 1]) then |s|
    else
      var m := TrailingStart(s[..|s| - 1], p);
      assert forall k :: m <= k < |s| - 1 ==> s[..|s| - 1][k] == s[k];
      m
  }

  /** The run length is determined by its two defining facts. */
  lemma LeadingRunUnique(s: string, p: char -> bool, n: nat)
    requires n <= |s| && All(s[..n], p) && (n < |s| ==> !p(s[n]))
    ensures LeadingRun(s, p) == n
  {
    var r := LeadingRun(s, p);
    forall k | 0 <= k < n ensures p(s[k]) {
      assert s[..n][k] == s[k];
    }
    forall k | 0 <= k < r ensures p(s[k]) {
      assert s[..r][k] == s[k];
    }
  }

  /** The suffix start is determined by its two defining facts. */
  lemma TrailingStartUnique(s: string, p: char -> bool, n: nat)
    requires n <= |s| && All(s[n..], p) && (n > 0 ==> !p(s[n - 1]))
    ensures TrailingStart(s, p) == n
  {
  }

  /** String.trim(): drops every leading and trailing character up to U+0020. */
  function Trim(s: string): (r: string)
    ensures |r| <= |s|
    ensures |r| > 0 ==> !IsTrimmable(r[0]) && !IsTrimmable(r[|r| - 1])
    ensures |r| == 0 <==> All(s, IsTrimmable)
  {
    var a := s[LeadingRun(s, IsTrimmable)..];
    var r := a[..TrailingStart(a, IsTrimmable)];
    assert |r| == 0 ==> s == s[..LeadingRun(s, IsTrimmable)] + a;
    r
  }

  /** `s.trim().isEmpty()`. */
  predicate IsBlank(s: string) {
    |Trim(s)| == 0
  }

  /** Trimming removes exactly the padding around a core with non-trimmable ends. */
  lemma TrimPadding(left: string, core: string, right: string)
    requires All(left, IsTrimmable) && All(right, IsTrimmable)
    requires |core| > 0 ==> !IsTrimmable(core[0]) && !IsTrimmable(core[|core| - 1])
    ensures Trim(left + core + right) == core
  {
    var s := left + core + right;
    if |core| == 0 {
      assert All(s, IsTrimmable) by {
        forall k | 0 <= k < |s| ensures IsTrimmable(s[k]) {
          if k < |left| { assert s[k] == left[k]; } else { assert s[k] == right[k - |left|]; }
        }
      }
    } else {
      assert s[..|left|] == left;
      LeadingRunUnique(s, IsTrimmable, |left|);
      var a := s[|left|..];
      assert a == core + right;
      assert a[|core|..] == right;
      TrailingStartUnique(a, IsTrimmable, |core|);
      assert a[..|core|] == core;
    }
  }

  /** Trimming twice changes nothing. */
  lemma TrimIdempotent(s: string)
    ensures Trim(Trim(s)) == Trim(s)
  {
    TrimPadding("", Trim(s), "");
    assert "" + Trim(s) + "" == Trim(s);
  }

  // ---- String.split(",") ----------------------------------------------------

  /** Index of the first `c` in `s`. */
  function IndexOf(s: string, c: char): (k: nat)
    requires c in s
    ensures k < |s| && s[k] == c && c !in s[..k]
  {
    if s[0] == c then 0
    else
      var m := IndexOf(s[1..], c);
      assert s[..m + 1] == [s[0]] + s[1..][..m];
      m + 1
  }

  /** The first occurrence is determined by its two defining facts. */
  lemma IndexOfUnique(s: string, c: char, n: nat)
    requires n < |s| && s[n] == c && c !in s[..n]
    ensures c in s && IndexOf(s, c) == n
  {
    assert s[n] in s;
  }

  /** Glues pieces together with `sep` between consecutive ones. */
  function Join(pieces: seq<string>, sep: char): string
    requires |pieces| > 0
  {
    if |pieces| == 1 then pieces[0] else pieces[0] + [sep] + Join(pieces[1..], sep)
  }

  /** Every separator-delimited piece of `s`, empty ones included. */
  function Split(s: string, sep: char): (pieces: seq<string>)
    ensures |pieces| > 0
    ensures forall i :: 0 <= i < |pieces| ==> sep !in pieces[i]
    ensures Join(pieces, sep) == s
    decreases |s|
  {
    if sep !in s then [s]
    else
      var k := IndexOf(s, sep);
      var tail := Split(s[k + 1..], sep);
      assert s == s[..k] + [sep] + s[k + 1..];
      [s[..k]] + tail
  }

  /** Splitting undoes joining pieces that do not contain the separator. */
  lemma {:induction false} SplitJoin(pieces: seq<string>, sep: char)
    requires |pieces| > 0
    requires forall i :: 0 <= i < |pieces| ==> sep !in pieces[i]
    ensures Split(Join(pieces, sep), sep) == pieces
    decreases |pieces|
  {
    if |pieces| == 1 {
      assert sep !in Join(pieces, sep);
    } else {
      JoinSplitsAtFirst(pieces[0], Join(pieces[1..], sep), sep);
      SplitJoin(pieces[1..], sep);
      assert pieces == [pieces[0]] + pieces[1..];
    }
  }

  /** The first separator of `head + [sep] + tail` is the one after `head`. */
  lemma JoinSplitsAtFirst(head: string, tail: string, sep: char)
    requires sep !in head
    ensures var s := head + [sep] + tail;
      sep in s && Split(s, sep) == [head] + Split(tail, sep)
  {
    var s := head + [sep] + tail;
    assert s[..|head|] == head;
    assert s[|head| + 1..] == tail;
    IndexOfUnique(s, sep, |head|);
  }

  /** String.split of two comma-free pieces, the second non-empty, joined by one separator. */
  lemma SplitTwoPieces(head: string, tail: string, sep: char)
    requires sep !in head && sep !in tail && tail != ""
    ensures JavaSplit(head + [sep] + tail, sep) == [head, tail]
  {
    JoinSplitsAtFirst(head, tail, sep);
    assert Split(head + [sep] + tail, sep) == [head, tail];
  }

  /** Removes the empty strings at the end of a list of pieces. */
  function DropTrailingEmpty(pieces: seq<string>): (r: seq<string>)
    ensures r <= pieces
    ensures forall k :: |r| <= k < |pieces| ==> pieces[k] == ""
    ensures |r| == 0 || r[|r| - 1] != ""
  {
    if |pieces| == 0 || pieces[|pieces| - 1] != "" then pieces
    else DropTrailingEmpty(pieces[..|pieces| - 1])
  }

  /**
   String.split with limit 0 on a one-character separator: the input itself when
   the separator does not occur, otherwise the pieces without trailing empty ones.
   */
  function JavaSplit(s: string, sep: char): (pieces: seq<string>)
    ensures sep !in s ==> pieces == [s]
    ensures sep in s ==> pieces <= Split(s, sep)
    ensures sep in s ==> forall k :: |pieces| <= k < |Split(s, sep)| ==> Split(s, sep)[k] == ""
    ensures sep in s ==> |pieces| == 0 || pieces[|pieces| - 1] != ""
  {
    if sep !in s then [s] else DropTrailingEmpty(Split(s, sep))
  }

  // ---- %d --------------------------------------------------------------------

  function DigitChar(d: nat): (c: char)
    requires d < 10
    ensures IsDigit(c)
  {
    ('0' as int + d) as char
  }

  /** Numeric value of a string of ASCII digits. */
  function DecimalValue(s: string): nat
    requires All(s, IsDigit)
  {
    if |s| == 0 then 0
    else
      assert All(s[..|s| - 1], IsDigit) by { assert forall k :: 0 <= k < |s| - 1 ==> s[..|s| - 1][k] == s[k]; }
      10 * DecimalValue(s[..|s| - 1]) + (s[|s| - 1] as int - '0' as int)
  }

  /** Decimal rendering of a natural number, without leading zeros. */
  function FormatNat(n: nat): (r: string)
    ensures |r| > 0 && All(r, IsDigit)
    ensures |r| > 1 ==> r[0] != '0'
    decreases n
  {
    if n < 10 then [DigitChar(n)]
    else
      var h := FormatNat(n / 10);
      assert All(h + [DigitChar(n % 10)], IsDigit) by {
        assert forall k :: 0 <= k < |h| ==> (h + [DigitChar(n % 10)])[k] == h[k];
      }
      h + [DigitChar(n % 10)]
  }

  /** The digits read back give the number that was rendered. */
  lemma {:induction false} FormatNatValue(n: nat)
    ensures DecimalValue(FormatNat(n)) == n
    decreases n
  {
    if n >= 10 {
      var r := FormatNat(n);
      assert r[..|r| - 1] == FormatNat(n / 10);
      FormatNatValue(n / 10);
    }
  }

  /** A digit string without leading zeros is the rendering of its own value: the rendering is canonical. */
  lemma {:induction false} FormatNatCanonical(s: string)
    requires |s| > 0 && All(s, IsDigit)
    requires |s| > 1 ==> s[0] != '0'
    ensures s == FormatNat(DecimalValue(s))
    decreases |s|
  {
    if |s| > 1 {
      var h := s[..|s| - 1];
      assert All(h, IsDigit) by { assert forall k :: 0 <= k < |h| ==> h[k] == s[k]; }
      assert h[0] == s[0];
      FormatNatCanonical(h);
      var v := DecimalValue(h);
      var d := s[|s| - 1] as int - '0' as int;
      assert DecimalValue(s) == 10 * v + d;
      assert DecimalValue(s) / 10 == v && DecimalValue(s) % 10 == d;
      assert s == h + [DigitChar(d)];
    }
  }

  /**
   `%d` of a Java int: an optional minus sign followed by the decimal digits of
   the magnitude, without leading zeros. FormatNatCanonical shows these clauses
   leave exactly one possible text.
   */
  function FormatInt(n: int): (r: string)
    ensures |r| > 0
    ensures n < 0 <==> r[0] == '-'
    ensures n < 0 ==> |r| > 1 && All(r[1..], IsDigit) && DecimalValue(r[1..]) == -n && (|r| > 2 ==> r[1] != '0')
    ensures n >= 0 ==> All(r, IsDigit) && DecimalValue(r) == n && (|r| > 1 ==> r[0] != '0')
  {
    FormatNatValue(if n < 0 then -n else n);
    if n < 0 then
      var d := FormatNat(-n);
      assert ("-" + d)[1..] == d;
      "-" + d
    else FormatNat(n)
  }
}
